=== FILE: README.md ===
# imgsplit, modelled in Dafny

`imgsplit` is a small C command-line tool that is meant to cut an image into a
grid of tiles and save each tile as a PNG file. This project models its
command-line program (`main.c`) and the splitter library it drives
(`ImgSplit.h`, `ImgSplit.c`). Everything outside those files is treated as a
parameter or left out. That covers the SDL and SDL_image calls, memory
management and the text of error messages.

What is modelled:

- **Number parsing.** `ParseNonNegativeInt` and `ParsePositiveInt` sit on top
  of `strtol`, which is modelled after section 7.22.1.4 of ISO C11. The model
  covers leading white space, an optional sign and the longest digit run. It
  also covers the no-conversion case, where the value is 0 and the end
  pointer is the start, and saturation at the limits of a 64-bit `long`.
- **The option loop** of `ReadOptions`. It covers one-letter flags, `--`,
  `-p`, `-1`/`-2` and the input file. Every failure is a value of
  `Config.Error` instead of a message and an exit.
- **Completing and checking the grid** once the image is loaded. This
  covers:
  - the start-position checks;
  - the `rows`/`columns` overflow guard;
  - the four floor-division derivations;
  - the positivity checks.
- **Naming.**
  - The default output prefix is the input name cut at its last dot.
  - The suffix width is counted by `ComputeNumericSuffixesWidth`.
  - The piece file name is built with `%0*d`, which is modelled after
    section 7.21.6.1 of ISO C11.
- **The splitter library.** Its error codes and records are modelled, and so
  is its stub implementation: `ImgSplit_Start` does nothing, and
  `ImgSplit_Next` reports the end of the pieces on every call. The stub is
  driven by `OutputImagePieces` and `main`.

`int` is taken to be 32 bits, `long` and `size_t` 64 bits. The file-scope
variables of `main.c` are the fields of the class `Program.Globals`. Its
methods are proved to compute the specification functions
`Arguments.ScanFrom`, `Geometry.Derive`, `Naming.SuffixWidth` and
`Program.Configuration`. The backward scan for the extension point is the
module-level method `Naming.FindExtensionPoint`, proved to compute
`Naming.ExtensionPoint`.

Behaviour of the code worth knowing:

- The start position is checked first, then the overflow guard, then the
  derivations, then positivity. There is no check that the grid fits inside
  the image, so `-s 90,0 -r 2 -c 2 -w 50 -h 25` on a 100×50 image is accepted
  (`Geometry.GivenGridMayExceedImage`).
- The overflow guard looks at the counts before derivation, so a derived count
  escapes it (`Geometry.DerivedCountsEscapeGuard`).
- The suffix width is the digit count of `rows*columns` (linear names) or of
  `max(rows, columns)` (grid names), not of the largest index printed
  (`Naming.WidthFollowsCountNotLargestIndex`).
- An empty numeric field reads as 0, because `strtol` converts nothing and
  stops where it started. So `-s 5,` sets the start to (5, 0) and `-s ,` to
  (0, 0). A sign and leading white space are accepted, so `+5` and ` 7` are
  valid values. `-0` reads as 0: it is a valid start coordinate, but `-w`,
  `-h`, `-r` and `-c` refuse it, as they refuse every 0. White space or a
  sign with no digit after it, such as ` x7` or `-`, converts nothing and is
  refused unless the field is empty.
- The splitter enumerates nothing, so the tool saves no piece. `ImgSplit.c`
  holds no stepping over cells and no tile rectangles, so there are none to
  model.

## Model

| member | source | states |
|---|---|---|
| ImgSplit.Value | ImgSplit.h:8-11 | The success code has value 0 and is the only code with value 0. Every error code is negative and within the range of an int. |
| ImgSplit.ToSize | main.c:353-360 | Storing an int into a `size_t` field keeps a value that is not negative and wraps a negative one modulo 2^64. |
| ImgSplit.Context.Start | ImgSplit.c:5-13 | Starting has no failure result and leaves the context, the surface and the options untouched. |
| ImgSplit.Context.Next | ImgSplit.c:15-27 | Every call returns success with a null surface, the header's end-of-images signal. It leaves the caller's row and column as they were and changes nothing else. |
| LibC.StrToL | main.c:57 | The stop index lies in the string and the value lies in the range of a long. A stop index of 0 comes with value 0. Any other stop index is just after a digit, at a non-digit or at the end. |
| LibC.StrToLNoNumeral | main.c:57 | White space and an optional sign with no digit after them convert nothing: value 0, stop index 0. |
| LibC.StrToLReadsNumeral | main.c:57 | Leading white space, then an optionally signed run of digits followed by a non-digit, is read whole: the signed value, saturated to a long, stopping right after the digits. |
| LibC.FormatPadded | main.c:333-341 | `%0*d` prints at least `width` characters: only digits for a non-negative number, a '-' and then digits for a negative one. |
| LibC.FormatPaddedWidth | main.c:333-341 | A number whose digits fit the field is printed exactly `width` characters wide. |
| LibC.StrToLFormatPadded | main.c:333-341 | Reading a printed field back with `strtol` gives the number and stops at the end of the field. |
| LibC.FormatPaddedInjective | main.c:333-341 | Two different numbers never print alike at the same width. |
| LibC.WrapInt | main.c:80 | The int product is in the int range. It is the true product when that fits, and otherwise it is congruent to the product modulo 2^32. |
| LibC.DigitCountBounds | main.c:81-84 | The number of divisions by 10 before a positive n reaches 0 is the k with 10^(k-1) <= n < 10^k. |
| Arguments.ParseNonNegativeInt | main.c:54-63 | On success the returned index is where `strtol` stopped, the character there is the expected end character, and the stored value is in [0, INT_MAX]. On failure null is returned and `*out` is untouched. |
| Arguments.ParsePositiveInt | main.c:65-72 | It succeeds exactly when the non-negative parse succeeds with a value of at least 1. `*out` is what that parse left, a refused 0 included. |
| Arguments.ParseRefusesTrailing | main.c:54-63 | White space and an optionally signed numeral followed by anything other than the expected end character (`7y`, or `7` with `,` expected) are refused whatever the value, and `*out` keeps its value. |
| Arguments.ParseNonNegativeIntReadsNumeral | main.c:54-63 | White space, an optionally signed numeral and then the expected end are accepted exactly when the value is in [0, INT_MAX]. The parse then stops right after the digits and stores the value; otherwise it returns null and leaves `*out` as it was. |
| Arguments.ParseNonNegativeIntNoNumeral | main.c:54-63 | Without a digit after the white space and sign, the parse succeeds with 0 at index 0 exactly when the string's first character is the expected end, and is refused otherwise. |
| Arguments.NoNumeralRefused | main.c:54-63 | " x7", " " and "-" are refused and `*out` keeps its value. |
| Arguments.LeadingSpaceAccepted | main.c:54-63 | " 7" is accepted as 7, ending at index 2. |
| Arguments.SignAccepted | main.c:54-63 | "+5" is accepted as 5 and "-0" as 0. |
| Arguments.NegativeRefused | main.c:54-63 | "-3" is refused and `*out` keeps its value. |
| Arguments.TrailingTextRefused | main.c:54-63 | "7x" is refused when the field must end the argument. |
| Arguments.EmptyFieldReadsZero | main.c:54-72 | A field that is empty up to the expected end is accepted as 0 by the non-negative parser and refused by the positive one. |
| Arguments.ReadCount | main.c:112-150 | `-w`, `-h`, `-r` and `-c` fail with a missing value exactly when they are the last argument. On success they consume the next argument and store a value in [1, INT_MAX]. |
| Arguments.ReadCountOfNumeral | main.c:112-150 | A value option given white space, an optional sign and digits stores their value when it is in [1, INT_MAX], and fails with an invalid value otherwise. |
| Arguments.ReadStart | main.c:94-110 | A successful `-s X,Y` changes only the start position, and both coordinates are in [0, INT_MAX]. |
| Arguments.StartFieldX | main.c:99 | The X field is read up to the comma. |
| Arguments.StartFieldY | main.c:100-102 | The Y field is read from just after the comma to the end of the argument. |
| Arguments.StartPositionOfNumerals | main.c:94-110 | `-s X,Y` with two numerals in the int range sets the start to (X, Y). |
| Arguments.StartPositionEmptyY | main.c:94-110 | `-s X,` sets the start to (X, 0). |
| Arguments.StartPositionBothEmpty | main.c:94-110 | `-s ,` sets the start to (0, 0). |
| Arguments.IsFlag | main.c:92 | An argument is a one-letter option exactly when its first character is '-', its second is not the terminator and its third is. |
| Arguments.ScanArg | main.c:92-181 | One turn of the loop never runs past the end. It consumes two arguments exactly when options are read and the argument is `-s`, `-w`, `-h`, `-r`, `-c` or `-p`, and one otherwise. |
| Arguments.ScanFrom | main.c:91-182 | The rest of the loop fails only with a missing value, an invalid value or an unknown option. |
| Arguments.Scan | main.c:89-182 | From the initial values, a successful scan keeps every count unset or in [1, INT_MAX], the start in [0, INT_MAX] and the mode 1 or 2, and has loaded no image. It fails only with an option error. |
| Arguments.ScanArgKeepsRanges | main.c:92-181 | One turn keeps every count unset or in [1, INT_MAX], the start in [0, INT_MAX] and the naming mode 1 or 2. |
| Arguments.ScanKeepsRanges | main.c:91-185 | The whole loop keeps those ranges, so the assertions on the start after it hold. |
| Arguments.NoMoreOptions | main.c:179-181 | Once options are off, every remaining argument is taken as the input file and the last one wins. |
| Arguments.DoubleDashEndsOptions | main.c:160-162 | `--` turns option reading off for the rest of the command line. |
| Arguments.OtherArgumentIsInput | main.c:92-181 | An argument that is not exactly a dash and one character, such as `-` or `-ab`, becomes the input file. |
| Arguments.MissingValueFails | main.c:94-173 | `-s`, `-w`, `-h`, `-r`, `-c` or `-p` as the last argument fails with a missing value. |
| Arguments.UnknownOptionFails | main.c:175-176 | A flag letter outside `s w h r c 1 2 - p` fails as an unknown option. |
| Arguments.FlagKeepsInputFile | main.c:92-176 | A one-letter option never changes the input file or the image. |
| Arguments.CountOptionsStore | main.c:112-150 | `-w`, `-h`, `-r` and `-c` followed by a numeral store its value in the cell width, cell height, rows and columns respectively, change nothing else and move on by two. A value outside [1, INT_MAX] fails with an invalid value. |
| Arguments.StartOptionStores | main.c:94-110 | `-s X,Y` with two numerals in [0, INT_MAX] stores the start position, changes nothing else and moves on by two. |
| Arguments.OtherOptionsStore | main.c:152-173 | `-1` and `-2` set the naming mode, `--` turns option reading off, and `-p P` sets the prefix to P; nothing else changes. |
| Arguments.InputFileAmongOptions | main.c:91-182 | `a.png -1` reads a.png in linear mode; in `a.png -p out b.png` the later file name wins and the prefix is out. |
| Geometry.Derive | main.c:217-228 | Run once the start lies inside the image, the derivations change only the two counts and the two cell sizes. |
| Geometry.TooMany | main.c:212 | The guard `rows > INT_MAX/columns` with positive columns fires exactly when the true product rows*columns exceeds INT_MAX. |
| Geometry.Resolve | main.c:197-241 | On success the start lies inside the image, all four counts and sizes are at least 1, and nothing but them changed. |
| Geometry.ResolveFailureOrder | main.c:197-241 | Failures come in a fixed precedence: start bounds, then the overflow guard, then rows, columns, width, height. It succeeds exactly when all four derived values are positive. |
| Geometry.ResolveKeepsGivenValues | main.c:217-228 | A value that was given is never overwritten by a derivation. |
| Geometry.DeriveFloor | main.c:217-228 | For any start inside the image, whether or not the grid is later accepted: each of the four guarded derivations yields the floor of the free span over the other value of its pair (k*d <= span < (k+1)*d), and a value whose guard does not hold is kept. |
| Geometry.ResolveDerivedValues | main.c:217-228 | On success, a derived value is the floor of the free span over the other value of its pair: k*d <= span < (k+1)*d. |
| Geometry.GivenCountsFitInt | main.c:212-215 | When rows and columns are both given, a successful resolution has rows*columns <= INT_MAX. |
| Geometry.DerivedCountsEscapeGuard | main.c:212-228 | A derived row count escapes the guard: the configuration is accepted with rows*columns > INT_MAX. |
| Geometry.GivenGridMayExceedImage | main.c:203-241 | A grid that extends past the image edge is accepted. |
| Geometry.DerivationRoundTrip | main.c:217-228 | Rows derived from a height that divides the span exactly give back that height when the height is derived from them. |
| Naming.Max | main.c:49-52 | The result is one of the two arguments and at least both. |
| Naming.ExtensionPoint | main.c:248-255 | The extension point is the index of the last dot, or 0 when no dot follows the first character. |
| Naming.ExtensionPointUnique | main.c:248-255 | Exactly one index satisfies that characterisation. |
| Naming.FindExtensionPoint | main.c:248-255 | The backward scan stops at the extension point. |
| Naming.DefaultPrefix | main.c:256-274 | The prefix is a prefix of the name. It is the whole name exactly when no dot follows the first character. Otherwise it ends just before the last dot. |
| Naming.DefaultPrefixExamples | main.c:244-275 | `photo.png` gives `photo` and `archive.tar.gz` gives `archive.tar`. |
| Naming.DefaultPrefixKeepsUndotted | main.c:244-275 | `README` and `.profile` stay whole. |
| Naming.DottedDirectoryIsCut | main.c:244-275 | The last dot may be in a directory name: `my.pics/photo` gives `my`. |
| Naming.SuffixBound | main.c:80 | For linear names the bound is the int product of the counts, equal to the true product when that fits. For grid names it is the larger count. |
| Naming.SuffixWidth | main.c:80-84 | The width is 0 exactly when the bound is not positive. Otherwise it is the number of decimal digits of the bound: 10^(w-1) <= bound < 10^w. |
| Naming.CellsFitSuffixWidth | main.c:74-85 | For a grid whose linear count fits an int, the width is at least 1 and every printed field of every cell is exactly that wide. |
| Naming.WidthFollowsCountNotLargestIndex | main.c:80 | One row of ten pieces gets width 2 although its largest index needs one digit; likewise for grid names. |
| Naming.WrappedCountGivesNoWidth | main.c:80-84 | A linear count that wraps to 0 gives a suffix width of 0. |
| Naming.CellIndex | main.c:340 | The linear index of a cell splits back into its row and column by division and remainder by the column count. |
| Naming.CellIndexRange | main.c:340 | The linear index of a cell lies in [0, rows*columns). |
| Naming.CellIndexInjective | main.c:340 | Two cells share a linear index exactly when they are the same cell. |
| Naming.CellIndexRowMajor | main.c:340 | Linear indices grow strictly in row-major order. |
| Naming.PieceName | main.c:333-341 | Every name starts with the prefix and '_', ends in ".png", and has room for at least one field of the width. |
| Naming.GridRowReadsBack | main.c:333-336 | The row field of a grid name reads back as the row. |
| Naming.GridColumnReadsBack | main.c:333-336 | The column field, after the row field and '_', reads back as the column. |
| Naming.LinearNameReadsBack | main.c:337-341 | The field of a linear name reads back as the linear index. |
| Naming.GridNamesDistinct | main.c:333-336 | Equal grid names come from the same cell, at any width. |
| Naming.LinearNamesDistinct | main.c:337-341 | Equal linear names of one grid come from the same cell, at any width. |
| Naming.PieceNamesDistinct | main.c:333-341 | Two cells of a grid whose count fits an int get the same name exactly when they are the same cell. |
| Naming.PieceNameLength | main.c:333-341 | At the computed width, all names of a run have the same length. |
| Program.Configuration | main.c:87-284 | A successful reading meets the assertions closing the reader: counts and sizes at least 1, an input file and a prefix, mode 1 or 2. The image is loaded and the start lies inside it. Scan errors and a missing input file are reported as such. |
| Program.ConfigurationIsResolve | main.c:187-241 | After a scan that succeeds and names an input file: a failed load is reported as a load failure, a grid failure is passed through unchanged, and on success every setting except the output prefix is the grid that `Resolve` completed on the loaded image. |
| Program.ConfigurationPrefix | main.c:247-275 | Without `-p` the prefix is the input name cut at its extension; with it, the value given. |
| Program.NegativeStartUnreachable | main.c:197-202 | The negative-start failures are never reported. |
| Program.Globals.constructor | main.c:14-33 | The variables start with counts and sizes unset (-1), the start at 0, grid names, width 0 and no files. |
| Program.Globals.DeriveMissing | main.c:217-228 | The four in-place derivations compute `Geometry.Derive` and change nothing else. |
| Program.Globals.ReadOptions | main.c:87-284 | The reader fails with exactly the error of `Configuration`, or succeeds leaving the variables equal to it. |
| Program.Globals.ComputeNumericSuffixesWidth | main.c:74-85 | The loop adds the suffix width to `num_width`. |
| Program.Globals.OutputImagePieces | main.c:349-376 | Against the stub splitter the loop ends on the first call and saves no piece. |
| Program.Run | main.c:378-386 | `main` ends with the option error when reading fails. Otherwise it succeeds and saves no piece. |

## Left out

- `Init` and `Cleanup` (SDL and SDL_image start-up and shut-down) are foreign library calls and are not modelled. `IMG_Load` is the `load` parameter. `IMG_SavePNG` and `SDL_FreeSurface` sit in the branch that saves a piece, which the stub never reaches. That branch only collects the piece name.
- `ImgSplit_GetError` and every message written to stderr are left out. Each failure is the `Config.Error` value naming it, and `exit` is the end of the run with that value.
- `malloc`, `strncpy` and `free` of the prefix and name buffers, and the `SUFFIX_ESTIMATION` buffer size, are left out. Strings are sequences of characters.
- `strtol`'s `errno` report of a saturated value is not modelled. Saturation itself is. `long` is taken to be 64 bits wide.
- `LibC.WrapInt`: signed `int` overflow in `rows*columns` is undefined in C. The model takes the two's-complement wrap that common compilers produce.
- `Naming.PieceName`: `OutputImagePieces` converts the `size_t` row and column from the splitter to the `int` parameters of `SavePiece`, and the linear index `row*columns + column` is computed in `int`, so a large grid could truncate or overflow them. The model takes them as the mathematical values, because the stub never produces a piece whose numbers could disagree.
- `Program.Globals.OutputImagePieces`: the `assert(num_width > 0)` of `SavePiece` is not modelled, because the saving branch is never reached.
- `ImgSplit.Context.Next`: the header's note that the surface is garbage after an error is not modelled, because the stub never returns an error. The driver's error branch (`SplitFailed`) is modelled but never taken.
- The header's promise that the library does not hold on to the options after `ImgSplit_Start` is not modelled. The stub stores nothing, and the options are a value in the model.
- Tile rectangles, pixel copying and row-major stepping do not exist in the code and are not modelled.

=== FILE: arguments.dfy ===
/**
 * Reading the command line: the two number parsers and the loop over the
 * arguments, as specification functions.  The loop itself runs in
 * `Program.Globals.ReadOptions`, which is proved to compute `ScanFrom`.
 */
module Arguments {
  import opened Wrappers
  import opened LibC
  import opened Config

  /** What a parse function leaves behind: the pointer it returns (None for null) and the value of `*out`. */
  datatype Parse = Parse(endedAt: Option<nat>, out: int)

  /**
   * `ParseNonNegativeInt`: `strtol` must stop exactly at `expectedEnd` with a
   * value in [0, INT_MAX]; then the value is stored and the stop index
   * returned, otherwise null is returned and `*out` keeps its value.
   */
  function ParseNonNegativeInt(str: CString, out: int, expectedEnd: char): (r: Parse)
    ensures r.endedAt.Some? ==>
              r.endedAt.value <= |str| && CharAt(str, r.endedAt.value) == expectedEnd && 0 <= r.out <= INT_MAX
    ensures r.endedAt.Some? ==> r.endedAt.value == StrToL(str).end
    ensures r.endedAt.None? ==> r.out == out
  {
    var c := StrToL(str);
    if CharAt(str, c.end) == expectedEnd && 0 <= c.value <= INT_MAX then Parse(Some(c.end), c.value)
    else Parse(None, out)
  }

  /**
   * `ParsePositiveInt`: succeeds exactly when `ParseNonNegativeInt` succeeds
   * with a value of at least 1.  A zero is still written to `*out` before it
   * is refused.
   */
  function ParsePositiveInt(str: CString, out: int, expectedEnd: char): (r: Parse)
    ensures var n := ParseNonNegativeInt(str, out, expectedEnd);
            && (r.endedAt.Some? <==> n.endedAt.Some? && n.out >= 1)
            && r.out == n.out
            && (r.endedAt.Some? ==> r.endedAt == n.endedAt)
  {
    var n := ParseNonNegativeInt(str, out, expectedEnd);
    if n.out == 0 then Parse(None, n.out) else n
  }

  /**
   * Leading white space, an optionally signed numeral and then the expected
   * end character are read in full; the value is accepted exactly when it
   * lies in [0, INT_MAX].
   */
  lemma ParseNonNegativeIntReadsNumeral(str: CString, ws: string, sign: string, ds: string, expectedEnd: char, rest: string, out: int)
    requires AllSpace(ws) && IsSign(sign) && |ds| >= 1 && AllDigits(ds) && !IsDigit(expectedEnd)
    requires expectedEnd == '\0' ==> rest == []
    requires expectedEnd != '\0' ==> |rest| >= 1 && rest[0] == expectedEnd
    requires str == ws + sign + ds + rest
    ensures var v := Signed(sign, DecimalValue(ds));
            ParseNonNegativeInt(str, out, expectedEnd)
              == if 0 <= v <= INT_MAX then Parse(Some(|ws| + |sign| + |ds|), v) else Parse(None, out)
  {
    NumeralLayout(ws, sign, ds, rest);
    EndFollows(ws + sign + ds, rest, expectedEnd);
    ParseOfParts(str, ws, sign, ds, expectedEnd, out);
  }

  /**
   * A numeral followed by anything other than the expected end character is
   * refused whatever its value, and `*out` keeps its value.
   */
  lemma ParseRefusesTrailing(str: CString, ws: string, sign: string, ds: string, rest: string, expectedEnd: char, out: int)
    requires IsNumeral(ws, sign, ds) && (rest == [] || !IsDigit(rest[0]))
    requires str == ws + sign + ds + rest && CharAt(rest, 0) != expectedEnd
    ensures ParseNonNegativeInt(str, out, expectedEnd) == Parse(None, out)
  {
    NumeralLayout(ws, sign, ds, rest);
    EndFollows(ws + sign + ds, rest, CharAt(rest, 0));
    ParseStopsElsewhere(str, ws, sign, ds, expectedEnd, out);
  }

  /** The parse of a string that begins with white space, a sign and digits, and has something other than the expected end right after them. */
  lemma ParseStopsElsewhere(str: CString, ws: string, sign: string, ds: string, expectedEnd: char, out: int)
    requires AllSpace(ws) && IsSign(sign) && |ds| >= 1 && AllDigits(ds)
    requires var p, q, e := |ws|, |ws| + |sign|, |ws| + |sign| + |ds|;
      && e <= |str| && str[..p] == ws && str[p..q] == sign && str[q..e] == ds
      && (e == |str| || !IsDigit(str[e])) && CharAt(str, e) != expectedEnd
    ensures ParseNonNegativeInt(str, out, expectedEnd) == Parse(None, out)
  {
    StrToLOfParts(str, ws, sign, ds);
  }

  /** The parse of a string that begins with white space, a sign and digits, and has the expected end right after them. */
  lemma ParseOfParts(str: CString, ws: string, sign: string, ds: string, expectedEnd: char, out: int)
    requires AllSpace(ws) && IsSign(sign) && |ds| >= 1 && AllDigits(ds) && !IsDigit(expectedEnd)
    requires var p, q, e := |ws|, |ws| + |sign|, |ws| + |sign| + |ds|;
      && e <= |str| && str[..p] == ws && str[p..q] == sign && str[q..e] == ds
      && CharAt(str, e) == expectedEnd
    ensures var v := Signed(sign, DecimalValue(ds));
            ParseNonNegativeInt(str, out, expectedEnd)
              == if 0 <= v <= INT_MAX then Parse(Some(|ws| + |sign| + |ds|), v) else Parse(None, out)
  {
    var e := |ws| + |sign| + |ds|;
    assert e == |str| || !IsDigit(str[e]);
    StrToLOfParts(str, ws, sign, ds);
    AcceptsConversion(str, Signed(sign, DecimalValue(ds)), e, out, expectedEnd);
  }

  /** When `strtol` stops at the expected end, the parse stands or falls with the range of the value read. */
  lemma AcceptsConversion(str: CString, v: int, e: nat, out: int, expectedEnd: char)
    requires e <= |str| && StrToL(str) == Conversion(Saturate(v), e) && CharAt(str, e) == expectedEnd
    ensures ParseNonNegativeInt(str, out, expectedEnd)
         == if 0 <= v <= INT_MAX then Parse(Some(e), v) else Parse(None, out)
  {
  }

  /** The character just after `numeral` is the head of `rest`, or the terminator when `rest` is empty. */
  lemma EndFollows(numeral: string, rest: string, expectedEnd: char)
    requires expectedEnd == '\0' ==> rest == []
    requires expectedEnd != '\0' ==> |rest| >= 1 && rest[0] == expectedEnd
    ensures CharAt(numeral + rest, |numeral|) == expectedEnd
  {
    if expectedEnd != '\0' {
      assert (numeral + rest)[|numeral|] == rest[0];
    }
  }

  /** Without a digit nothing is converted, so a field that is empty up to the expected end reads as zero. */
  lemma EmptyFieldReadsZero(str: CString, out: int, expectedEnd: char)
    requires CharAt(str, 0) == expectedEnd
    requires !IsSpace(expectedEnd) && !IsDigit(expectedEnd) && expectedEnd != '+' && expectedEnd != '-'
    ensures ParseNonNegativeInt(str, out, expectedEnd) == Parse(Some(0), 0)
    ensures ParsePositiveInt(str, out, expectedEnd).endedAt.None?
  {
    assert SkipSpace(str, 0) == 0;
    assert DigitsEnd(str, 0) == 0;
  }

  /** `strtol` skips leading white space, so " 7" reads as 7. */
  lemma LeadingSpaceAccepted(out: int)
    ensures ParseNonNegativeInt(" 7", out, '\0') == Parse(Some(2), 7)
  {
    assert DecimalValue("7") == 7;
    assert " 7" == " " + "" + "7" + "";
    ParseNonNegativeIntReadsNumeral(" 7", " ", "", "7", '\0', "", out);
  }

  /** A plus sign is read by `strtol`, and so is a minus sign on zero. */
  lemma SignAccepted(out: int)
    ensures ParseNonNegativeInt("+5", out, '\0') == Parse(Some(2), 5)
    ensures ParseNonNegativeInt("-0", out, '\0') == Parse(Some(2), 0)
  {
    assert DecimalValue("5") == 5 && DecimalValue("0") == 0;
    assert "+5" == "" + "+" + "5" + "";
    ParseNonNegativeIntReadsNumeral("+5", "", "+", "5", '\0', "", out);
    assert "-0" == "" + "-" + "0" + "";
    ParseNonNegativeIntReadsNumeral("-0", "", "-", "0", '\0', "", out);
  }

  /** A negative number is refused and `*out` keeps its value. */
  lemma NegativeRefused(out: int)
    ensures ParseNonNegativeInt("-3", out, '\0') == Parse(None, out)
  {
    assert DecimalValue("3") == 3;
    assert "-3" == "" + "-" + "3" + "";
    ParseNonNegativeIntReadsNumeral("-3", "", "-", "3", '\0', "", out);
  }

  /** Text after the numeral other than the expected end is refused. */
  lemma TrailingTextRefused(out: int)
    ensures ParseNonNegativeInt("7x", out, '\0') == Parse(None, out)
  {
    assert "7x" == "" + "" + "7" + "x";
    StrToLReadsNumeral("", "", "7", "x");
  }

  /**
   * Without a digit after the white space and the sign nothing is converted,
   * so the parse succeeds with 0 exactly when the field is empty up to the
   * expected end, and is refused otherwise.
   */
  lemma ParseNonNegativeIntNoNumeral(str: CString, ws: string, sign: string, rest: string, out: int, expectedEnd: char)
    requires AllSpace(ws) && IsSign(sign)
    requires rest == [] || !IsDigit(rest[0])
    requires sign == [] && rest != [] ==> !IsSpace(rest[0]) && rest[0] != '+' && rest[0] != '-'
    requires str == ws + sign + rest
    ensures ParseNonNegativeInt(str, out, expectedEnd)
         == if CharAt(str, 0) == expectedEnd then Parse(Some(0), 0) else Parse(None, out)
  {
    StrToLNoNumeral(ws, sign, rest);
  }

  /** White space or a sign followed by anything but a digit is refused: " x7", " " and "-" are not numbers. */
  lemma NoNumeralRefused(out: int)
    ensures ParseNonNegativeInt(" x7", out, '\0') == Parse(None, out)
    ensures ParseNonNegativeInt(" ", out, '\0') == Parse(None, out)
    ensures ParseNonNegativeInt("-", out, '\0') == Parse(None, out)
  {
    assert " x7" == " " + "" + "x7";
    ParseNonNegativeIntNoNumeral(" x7", " ", "", "x7", out, '\0');
    assert " " == " " + "" + "";
    ParseNonNegativeIntNoNumeral(" ", " ", "", "", out, '\0');
    assert "-" == "" + "-" + "";
    ParseNonNegativeIntNoNumeral("-", "", "-", "", out, '\0');
  }

  /** An argument is a one-letter option when it is exactly a dash and one more character. */
  predicate IsFlag(arg: CString)
    ensures IsFlag(arg) <==> 1 <= |arg| && arg[0] == '-' && CharAt(arg, 1) != '\0' && CharAt(arg, 2) == '\0'
  {
    |arg| == 2 && arg[0] == '-'
  }

  /** Where the option reader stands after one argument: the next index, whether options are still read, the variables. */
  datatype Step = Step(next: nat, readingOpts: bool, settings: Settings)

  /** The value of `-w`, `-h`, `-r` or `-c`: the argument after the flag at `i`, parsed as a positive int. */
  function ReadCount(argv: seq<CString>, i: nat, flag: char, current: int): (r: Result<int, Error>)
    requires i < |argv|
    ensures r.Ok? ==> i + 1 < |argv| && 1 <= r.value <= INT_MAX
    ensures i + 1 == |argv| <==> r == Err(MissingValue(flag))
  {
    if i + 1 == |argv| then Err(MissingValue(flag))
    else
      var p := ParsePositiveInt(argv[i + 1], current, '\0');
      if p.endedAt.None? then Err(InvalidValue(flag, argv[i + 1])) else Ok(p.out)
  }

  /**
   * The value of `-s`: "X,Y".  X is read up to the comma, Y from just after
   * it to the end of the argument.
   */
  function ReadStart(value: CString, s: Settings): (r: Result<Settings, Error>)
    ensures r.Ok? ==> r.value == s.(startX := r.value.startX, startY := r.value.startY)
    ensures r.Ok? ==> 0 <= r.value.startX <= INT_MAX && 0 <= r.value.startY <= INT_MAX
  {
    var x := ParseNonNegativeInt(value, s.startX, ',');
    if x.endedAt.None? then Err(InvalidValue('s', value))
    else
      var y := ParseNonNegativeInt(value[x.endedAt.value + 1..], s.startY, '\0');
      if y.endedAt.None? then Err(InvalidValue('s', value))
      else Ok(s.(startX := x.out, startY := y.out))
  }

  /** One turn of the option loop, for the argument at index `i`. */
  function ScanArg(argv: seq<CString>, i: nat, readingOpts: bool, s: Settings): (r: Result<Step, Error>)
    requires i < |argv|
    ensures r.Ok? ==> i < r.value.next <= i + 2 && r.value.next <= |argv|
    ensures r.Ok? ==> (r.value.next == i + 2 <==> readingOpts && IsFlag(argv[i]) && argv[i][1] in "swhrcp")
  {
    var arg := argv[i];
    if readingOpts && IsFlag(arg) then
      match arg[1]
      case 's' =>
        if i + 1 == |argv| then Err(MissingValue('s'))
        else
          var r := ReadStart(argv[i + 1], s);
          if r.Err? then Err(r.error) else Ok(Step(i + 2, readingOpts, r.value))
      case 'w' =>
        var r := ReadCount(argv, i, 'w', s.cellWidth);
        if r.Err? then Err(r.error) else Ok(Step(i + 2, readingOpts, s.(cellWidth := r.value)))
      case 'h' =>
        var r := ReadCount(argv, i, 'h', s.cellHeight);
        if r.Err? then Err(r.error) else Ok(Step(i + 2, readingOpts, s.(cellHeight := r.value)))
      case 'r' =>
        var r := ReadCount(argv, i, 'r', s.rows);
        if r.Err? then Err(r.error) else Ok(Step(i + 2, readingOpts, s.(rows := r.value)))
      case 'c' =>
        var r := ReadCount(argv, i, 'c', s.columns);
        if r.Err? then Err(r.error) else Ok(Step(i + 2, readingOpts, s.(columns := r.value)))
      case '1' => Ok(Step(i + 1, readingOpts, s.(dim := 1)))
      case '2' => Ok(Step(i + 1, readingOpts, s.(dim := 2)))
      case '-' => Ok(Step(i + 1, false, s))
      case 'p' =>
        if i + 1 == |argv| then Err(MissingValue('p'))
        else Ok(Step(i + 2, readingOpts, s.(outputPrefix := Some(argv[i + 1]))))
      case _ => Err(UnknownOption(arg))
    else
      Ok(Step(i + 1, readingOpts, s.(inputFile := Some(arg))))
  }

  /** The option loop from index `i` to the end of `argv`; the first failing argument stops it. */
  function ScanFrom(argv: seq<CString>, i: nat, readingOpts: bool, s: Settings): (r: Result<Settings, Error>)
    ensures r.Err? ==> IsOptionError(r.error)
    decreases |argv| - i
  {
    if i >= |argv| then Ok(s)
    else
      match ScanArg(argv, i, readingOpts, s)
      case Err(e) => Err(e)
      case Ok(step) => ScanFrom(argv, step.next, step.readingOpts, step.settings)
  }

  /** The whole option loop: `argv[0]` is the program name. */
  function Scan(argv: seq<CString>): (r: Result<Settings, Error>)
    ensures r.Ok? ==> WellScanned(r.value) && r.value.inputSurf.None?
    ensures r.Err? ==> IsOptionError(r.error)
  {
    ScanKeepsRanges(argv, 1, true, Defaults);
    ScanFrom(argv, 1, true, Defaults)
  }

  /** A count or cell size after the option loop: unset (-1) or a positive int. */
  predicate CountOrUnset(v: int) {
    v == -1 || 1 <= v <= INT_MAX
  }

  /** The ranges the option loop keeps its variables in. */
  predicate WellScanned(s: Settings) {
    && CountOrUnset(s.rows) && CountOrUnset(s.columns)
    && CountOrUnset(s.cellWidth) && CountOrUnset(s.cellHeight)
    && 0 <= s.startX <= INT_MAX && 0 <= s.startY <= INT_MAX
    && (s.dim == 1 || s.dim == 2)
  }

  /** One turn of the option loop keeps the ranges. */
  lemma ScanArgKeepsRanges(argv: seq<CString>, i: nat, readingOpts: bool, s: Settings)
    requires i < |argv| && WellScanned(s)
    ensures ScanArg(argv, i, readingOpts, s).Ok? ==>
              WellScanned(ScanArg(argv, i, readingOpts, s).value.settings)
              && ScanArg(argv, i, readingOpts, s).value.settings.inputSurf == s.inputSurf
  {
    var arg := argv[i];
    if readingOpts && IsFlag(arg) {
      match arg[1]
      case 's' =>
      case 'w' =>
      case 'h' =>
      case 'r' =>
      case 'c' =>
      case '1' =>
      case '2' =>
      case '-' =>
      case 'p' =>
      case _ =>
    }
  }

  /** The option loop only ever stores unset-or-positive counts, non-negative start offsets and a naming mode of 1 or 2. */
  lemma {:induction false} ScanKeepsRanges(argv: seq<CString>, i: nat, readingOpts: bool, s: Settings)
    requires WellScanned(s)
    ensures ScanFrom(argv, i, readingOpts, s).Ok? ==>
              WellScanned(ScanFrom(argv, i, readingOpts, s).value)
              && ScanFrom(argv, i, readingOpts, s).value.inputSurf == s.inputSurf
    decreases |argv| - i
  {
    if i < |argv| {
      var r := ScanArg(argv, i, readingOpts, s);
      ScanArgKeepsRanges(argv, i, readingOpts, s);
      if r.Ok? {
        ScanKeepsRanges(argv, r.value.next, r.value.readingOpts, r.value.settings);
      }
    }
  }

  /** The errors the option loop itself reports: a missing or invalid value, or an unknown option. */
  predicate IsOptionError(e: Error) {
    e.MissingValue? || e.InvalidValue? || e.UnknownOption?
  }

  /** Once options are no longer read, every remaining argument is taken as the input file, and the last one wins. */
  lemma {:induction false} NoMoreOptions(argv: seq<CString>, i: nat, s: Settings)
    ensures ScanFrom(argv, i, false, s) == Ok(if i < |argv| then s.(inputFile := Some(argv[|argv| - 1])) else s)
    decreases |argv| - i
  {
    if i < |argv| {
      NoMoreOptions(argv, i + 1, s.(inputFile := Some(argv[i])));
    }
  }

  /** `--` stops option reading: whatever follows it, options included, names the input file. */
  lemma DoubleDashEndsOptions(argv: seq<CString>, i: nat, s: Settings)
    requires i < |argv| && argv[i] == "--"
    ensures ScanFrom(argv, i, true, s)
         == Ok(if i + 1 < |argv| then s.(inputFile := Some(argv[|argv| - 1])) else s)
  {
    NoMoreOptions(argv, i + 1, s);
  }

  /** An argument that is not a two-character option, such as `-`, `-ab` or a plain name, becomes the input file. */
  lemma OtherArgumentIsInput(argv: seq<CString>, i: nat, readingOpts: bool, s: Settings)
    requires i < |argv| && !(readingOpts && IsFlag(argv[i]))
    ensures ScanArg(argv, i, readingOpts, s) == Ok(Step(i + 1, readingOpts, s.(inputFile := Some(argv[i]))))
  {
  }

  /** A value option that is the last argument fails. */
  lemma {:induction false} MissingValueFails(argv: seq<CString>, i: nat, s: Settings)
    requires i + 1 == |argv| && IsFlag(argv[i]) && argv[i][1] in "swhrcp"
    ensures ScanFrom(argv, i, true, s) == Err(MissingValue(argv[i][1]))
  {
    var f := argv[i][1];
    assert f == 's' || f == 'w' || f == 'h' || f == 'r' || f == 'c' || f == 'p';
  }

  /** An option letter outside `s w h r c 1 2 - p` fails. */
  lemma {:induction false} UnknownOptionFails(argv: seq<CString>, i: nat, s: Settings)
    requires i < |argv| && IsFlag(argv[i]) && argv[i][1] !in "swhrc12-p"
    ensures ScanFrom(argv, i, true, s) == Err(UnknownOption(argv[i]))
  {
  }

  /** Whether `ws + sign + ds` is a numeral as `strtol` reads it: white space, an optional sign, at least one digit. */
  predicate IsNumeral(ws: string, sign: string, ds: string) {
    AllSpace(ws) && IsSign(sign) && |ds| >= 1 && AllDigits(ds)
  }

  /**
   * A value option given a numeral stores its value when that lies in
   * [1, INT_MAX] and fails with an invalid value otherwise.
   */
  lemma ReadCountOfNumeral(argv: seq<CString>, i: nat, flag: char, current: int, ws: string, sign: string, ds: string)
    requires i + 1 < |argv| && IsNumeral(ws, sign, ds) && argv[i + 1] == ws + sign + ds
    ensures var v := Signed(sign, DecimalValue(ds));
            ReadCount(argv, i, flag, current)
              == if 1 <= v <= INT_MAX then Ok(v) else Err(InvalidValue(flag, argv[i + 1]))
  {
    assert argv[i + 1] == ws + sign + ds + "";
    ParseNonNegativeIntReadsNumeral(argv[i + 1], ws, sign, ds, '\0', "", current);
  }

  /**
   * `-s X,Y` with the numerals of two numbers in [0, INT_MAX] sets the start
   * position to (X, Y).
   */
  lemma StartPositionOfNumerals(value: CString, s: Settings, x: nat, y: nat)
    requires x <= INT_MAX && y <= INT_MAX
    requires value == DecimalDigits(x) + "," + DecimalDigits(y)
    ensures ReadStart(value, s) == Ok(s.(startX := x, startY := y))
  {
    var dx, dy := DecimalDigits(x), DecimalDigits(y);
    assert value == dx + ("," + dy);
    StartFieldX(value, s.startX, dx, "," + dy);
    StartFieldY(value, s.startY, dx, dy);
  }

  /** The X field of "X,Y" is read up to the comma. */
  lemma StartFieldX(value: CString, out: int, dx: string, rest: string)
    requires |dx| >= 1 && AllDigits(dx) && DecimalValue(dx) <= INT_MAX
    requires |rest| >= 1 && rest[0] == ','
    requires value == dx + rest
    ensures ParseNonNegativeInt(value, out, ',') == Parse(Some(|dx|), DecimalValue(dx))
  {
    assert value == "" + "" + dx + rest;
    ParseNonNegativeIntReadsNumeral(value, "", "", dx, ',', rest, out);
  }

  /** The Y field of "X,Y" is read from just after the comma to the end. */
  lemma StartFieldY(value: CString, out: int, dx: string, dy: string)
    requires |dy| >= 1 && AllDigits(dy) && DecimalValue(dy) <= INT_MAX
    requires value == dx + "," + dy
    ensures ParseNonNegativeInt(value[|dx| + 1..], out, '\0') == Parse(Some(|dy|), DecimalValue(dy))
  {
    var tail: CString := value[|dx| + 1..];
    assert tail == "" + "" + dy + "";
    ParseNonNegativeIntReadsNumeral(tail, "", "", dy, '\0', "", out);
  }

  /** `-s X,` leaves the Y field empty, and an empty field reads as zero: the start position is (X, 0). */
  lemma StartPositionEmptyY(value: CString, s: Settings, x: nat)
    requires x <= INT_MAX
    requires value == DecimalDigits(x) + ","
    ensures ReadStart(value, s) == Ok(s.(startX := x, startY := 0))
  {
    var dx := DecimalDigits(x);
    StartFieldX(value, s.startX, dx, ",");
    var tail: CString := value[|dx| + 1..];
    assert tail == [];
    EmptyFieldReadsZero(tail, s.startY, '\0');
  }

  /** `-s ,` reads both fields as zero. */
  lemma StartPositionBothEmpty(value: CString, s: Settings)
    requires value == ","
    ensures ReadStart(value, s) == Ok(s.(startX := 0, startY := 0))
  {
    EmptyFieldReadsZero(value, s.startX, ',');
    var tail: CString := value[1..];
    assert tail == [];
    EmptyFieldReadsZero(tail, s.startY, '\0');
  }

  /** A one-letter option never touches the input file or the image. */
  lemma FlagKeepsInputFile(argv: seq<CString>, i: nat, s: Settings)
    requires i < |argv| && IsFlag(argv[i])
    ensures ScanArg(argv, i, true, s).Ok? ==>
              ScanArg(argv, i, true, s).value.settings.inputFile == s.inputFile
              && ScanArg(argv, i, true, s).value.settings.inputSurf == s.inputSurf
  {
  }

  /**
   * `-w`, `-h`, `-r` and `-c` followed by a numeral store its value in the
   * cell width, cell height, row count and column count respectively, and
   * change nothing else; a value outside [1, INT_MAX] fails.
   */
  lemma CountOptionsStore(argv: seq<CString>, i: nat, s: Settings, ws: string, sign: string, ds: string)
    requires i + 1 < |argv| && IsNumeral(ws, sign, ds) && argv[i + 1] == ws + sign + ds
    ensures var v, ok := Signed(sign, DecimalValue(ds)), 1 <= Signed(sign, DecimalValue(ds)) <= INT_MAX;
      && (argv[i] == "-w" ==> (ScanArg(argv, i, true, s)
            == if ok then Ok(Step(i + 2, true, s.(cellWidth := v))) else Err(InvalidValue('w', argv[i + 1]))))
      && (argv[i] == "-h" ==> (ScanArg(argv, i, true, s)
            == if ok then Ok(Step(i + 2, true, s.(cellHeight := v))) else Err(InvalidValue('h', argv[i + 1]))))
      && (argv[i] == "-r" ==> (ScanArg(argv, i, true, s)
            == if ok then Ok(Step(i + 2, true, s.(rows := v))) else Err(InvalidValue('r', argv[i + 1]))))
      && (argv[i] == "-c" ==> (ScanArg(argv, i, true, s)
            == if ok then Ok(Step(i + 2, true, s.(columns := v))) else Err(InvalidValue('c', argv[i + 1]))))
  {
    ReadCountOfNumeral(argv, i, 'w', s.cellWidth, ws, sign, ds);
    ReadCountOfNumeral(argv, i, 'h', s.cellHeight, ws, sign, ds);
    ReadCountOfNumeral(argv, i, 'r', s.rows, ws, sign, ds);
    ReadCountOfNumeral(argv, i, 'c', s.columns, ws, sign, ds);
  }

  /** `-s X,Y` with the numerals of two numbers in [0, INT_MAX] stores the start position and changes nothing else. */
  lemma StartOptionStores(argv: seq<CString>, i: nat, s: Settings, x: nat, y: nat)
    requires i + 1 < |argv| && argv[i] == "-s"
    requires x <= INT_MAX && y <= INT_MAX
    requires argv[i + 1] == DecimalDigits(x) + "," + DecimalDigits(y)
    ensures ScanArg(argv, i, true, s) == Ok(Step(i + 2, true, s.(startX := x, startY := y)))
  {
    StartPositionOfNumerals(argv[i + 1], s, x, y);
  }

  /** `-1` and `-2` choose the naming mode, `-p P` the output prefix, and `--` ends option reading. */
  lemma OtherOptionsStore(argv: seq<CString>, i: nat, s: Settings)
    requires i < |argv|
    ensures argv[i] == "-1" ==> ScanArg(argv, i, true, s) == Ok(Step(i + 1, true, s.(dim := 1)))
    ensures argv[i] == "-2" ==> ScanArg(argv, i, true, s) == Ok(Step(i + 1, true, s.(dim := 2)))
    ensures argv[i] == "--" ==> ScanArg(argv, i, true, s) == Ok(Step(i + 1, false, s))
    ensures argv[i] == "-p" && i + 1 < |argv| ==>
              ScanArg(argv, i, true, s) == Ok(Step(i + 2, true, s.(outputPrefix := Some(argv[i + 1]))))
  {
  }

  /** Options around input file names leave the last name standing: `a.png -1` and `a.png -p out b.png`. */
  lemma InputFileAmongOptions()
    ensures Scan(["imgsplit", "a.png", "-1"]) == Ok(Defaults.(inputFile := Some("a.png"), dim := 1))
    ensures Scan(["imgsplit", "a.png", "-p", "out", "b.png"])
         == Ok(Defaults.(inputFile := Some("b.png"), outputPrefix := Some("out")))
  {
    var argv: seq<CString> := ["imgsplit", "a.png", "-1"];
    OtherArgumentIsInput(argv, 1, true, Defaults);
    OtherOptionsStore(argv, 2, Defaults.(inputFile := Some("a.png")));
    var argv2: seq<CString> := ["imgsplit", "a.png", "-p", "out", "b.png"];
    OtherArgumentIsInput(argv2, 1, true, Defaults);
    OtherOptionsStore(argv2, 2, Defaults.(inputFile := Some("a.png")));
    OtherArgumentIsInput(argv2, 4, true, Defaults.(inputFile := Some("a.png"), outputPrefix := Some("out")));
  }
}

=== FILE: config.dfy ===
/**
 * The program's settings: the file-scope variables of the command-line tool
 * that the option reader fills in, and the ways the tool can fail.
 */
module Config {
  import opened Wrappers
  import opened LibC
  import ImgSplit

  /**
   * The option reader's variables.  Counts and cell sizes are -1 while unset;
   * `dim` selects grid (2) or linear (1) piece names.
   */
  datatype Settings = Settings(
    rows: int,
    columns: int,
    cellWidth: int,
    cellHeight: int,
    startX: int,
    startY: int,
    dim: int,
    inputFile: Option<CString>,
    outputPrefix: Option<CString>,
    inputSurf: Option<ImgSplit.Surface>)

  /** The variables' values before any option is read. */
  const Defaults: Settings := Settings(-1, -1, -1, -1, 0, 0, 2, None, None, None)

  /** Every way the tool stops with an error message and a failure exit status. */
  datatype Error =
    | MissingValue(flag: char)                  // a value flag is the last argument
    | InvalidValue(flag: char, arg: CString)    // the value after a flag does not parse
    | UnknownOption(option: CString)
    | InputUnspecified
    | LoadFailed                                // the image loader reported an error
    | NegativeStartX(x: int)
    | NegativeStartY(y: int)
    | StartXOutside(startX: int, width: int)
    | StartYOutside(startY: int, height: int)
    | TooManyPieces(rowCount: int, columnCount: int)
    | RowsUnspecified
    | ColumnsUnspecified
    | WidthUnspecified
    | HeightUnspecified
    | SplitFailed                               // the splitter returned a negative code
}

=== FILE: geometry.dfy ===
/**
 * Completing and checking the grid once the image is loaded: the start
 * position must lie inside the image, `rows` must not overflow against
 * `columns`, missing counts and cell sizes are derived from the others by
 * floor division, and every count and size must end up positive.
 */
module Geometry {
  import opened Wrappers
  import opened LibC
  import opened Config
  import ImgSplit

  /**
   * The four derivations, in the order the tool runs them; each fires only
   * when its target is still negative (unset) and its source is positive.
   */
  function Derive(s: Settings, img: ImgSplit.Surface): (d: Settings)
    requires 0 <= s.startX < img.w && 0 <= s.startY < img.h
    ensures d == s.(rows := d.rows, columns := d.columns, cellWidth := d.cellWidth, cellHeight := d.cellHeight)
  {
    var rows := if s.rows < 0 && s.cellHeight > 0 then (img.h - s.startY) / s.cellHeight else s.rows;
    var columns := if s.columns < 0 && s.cellWidth > 0 then (img.w - s.startX) / s.cellWidth else s.columns;
    var cellHeight := if s.cellHeight < 0 && rows > 0 then (img.h - s.startY) / rows else s.cellHeight;
    var cellWidth := if s.cellWidth < 0 && columns > 0 then (img.w - s.startX) / columns else s.cellWidth;
    s.(rows := rows, columns := columns, cellWidth := cellWidth, cellHeight := cellHeight)
  }

  /** Whether the overflow guard fires: `columns > 0 && rows > INT_MAX / columns`, on the values before derivation. */
  predicate TooMany(rows: int, columns: int)
    ensures TooMany(rows, columns) <==> columns > 0 && rows * columns > INT_MAX
  {
    if columns > 0 then
      var q := INT_MAX / columns;
      assert q * columns <= INT_MAX < (q + 1) * columns;
      if rows > q then MultiplyMonotone(q + 1, rows, columns); true
      else MultiplyMonotone(rows, q, columns); false
    else false
  }

  /**
   * The checks of the option reader once the image is loaded, in its order:
   * start position, overflow guard, derivation, then rows, columns, cell
   * width and cell height must be positive.  Only the four geometry values
   * ever change; on success the start lies inside the image and all four are
   * at least 1.
   */
  function Resolve(s: Settings, img: ImgSplit.Surface): (r: Result<Settings, Error>)
    ensures r.Ok? ==> 0 <= r.value.startX < img.w && 0 <= r.value.startY < img.h
    ensures r.Ok? ==> r.value.rows >= 1 && r.value.columns >= 1 && r.value.cellWidth >= 1 && r.value.cellHeight >= 1
    ensures r.Ok? ==> r.value == s.(rows := r.value.rows, columns := r.value.columns,
                                    cellWidth := r.value.cellWidth, cellHeight := r.value.cellHeight)
  {
    if s.startX < 0 then Err(NegativeStartX(s.startX))
    else if s.startY < 0 then Err(NegativeStartY(s.startY))
    else if s.startX >= img.w then Err(StartXOutside(s.startX, img.w))
    else if s.startY >= img.h then Err(StartYOutside(s.startY, img.h))
    else if TooMany(s.rows, s.columns) then Err(TooManyPieces(s.rows, s.columns))
    else
      var d := Derive(s, img);
      if d.rows <= 0 then Err(RowsUnspecified)
      else if d.columns <= 0 then Err(ColumnsUnspecified)
      else if d.cellWidth <= 0 then Err(WidthUnspecified)
      else if d.cellHeight <= 0 then Err(HeightUnspecified)
      else Ok(d)
  }

  /** Whether the start position lies inside the image. */
  predicate StartInside(s: Settings, img: ImgSplit.Surface) {
    0 <= s.startX < img.w && 0 <= s.startY < img.h
  }

  /**
   * Failures come in a fixed precedence: a start outside the image first,
   * then the overflow guard (even when counts are missing), and only then
   * the positivity checks in the order rows, columns, width, height.
   */
  lemma ResolveFailureOrder(s: Settings, img: ImgSplit.Surface)
    ensures !StartInside(s, img) ==>
              (Resolve(s, img).Err? &&
               Resolve(s, img).error in {NegativeStartX(s.startX), NegativeStartY(s.startY),
                                         StartXOutside(s.startX, img.w), StartYOutside(s.startY, img.h)})
    ensures s.startX >= 0 && s.startY >= 0 && s.startX >= img.w ==> Resolve(s, img) == Err(StartXOutside(s.startX, img.w))
    ensures StartInside(s, img) && TooMany(s.rows, s.columns) ==> Resolve(s, img) == Err(TooManyPieces(s.rows, s.columns))
    ensures StartInside(s, img) && !TooMany(s.rows, s.columns) ==>
              var d := Derive(s, img);
              && (d.rows <= 0 ==> Resolve(s, img) == Err(RowsUnspecified))
              && (d.rows > 0 && d.columns <= 0 ==> Resolve(s, img) == Err(ColumnsUnspecified))
              && (d.rows > 0 && d.columns > 0 && d.cellWidth <= 0 ==> Resolve(s, img) == Err(WidthUnspecified))
              && (d.rows > 0 && d.columns > 0 && d.cellWidth > 0 && d.cellHeight <= 0 ==> Resolve(s, img) == Err(HeightUnspecified))
              && (d.rows > 0 && d.columns > 0 && d.cellWidth > 0 && d.cellHeight > 0 <==> Resolve(s, img).Ok?)
  {
  }

  /** A value given on the command line (not negative) is never overwritten by a derivation. */
  lemma ResolveKeepsGivenValues(s: Settings, img: ImgSplit.Surface)
    requires Resolve(s, img).Ok?
    ensures s.rows >= 0 ==> Resolve(s, img).value.rows == s.rows
    ensures s.columns >= 0 ==> Resolve(s, img).value.columns == s.columns
    ensures s.cellWidth >= 0 ==> Resolve(s, img).value.cellWidth == s.cellWidth
    ensures s.cellHeight >= 0 ==> Resolve(s, img).value.cellHeight == s.cellHeight
  {
  }

  /**
   * A derived value is the floor of the free span divided by the other value
   * of its pair: a derived count is the most cells of the given size that fit,
   * a derived cell size the largest size that fits the given count.
   */
  lemma ResolveDerivedValues(s: Settings, img: ImgSplit.Surface)
    requires Resolve(s, img).Ok?
    ensures var g, spanY, spanX := Resolve(s, img).value, img.h - s.startY, img.w - s.startX;
      && (s.rows < 0 ==> s.cellHeight > 0 && g.rows * g.cellHeight <= spanY < (g.rows + 1) * g.cellHeight)
      && (s.columns < 0 ==> s.cellWidth > 0 && g.columns * g.cellWidth <= spanX < (g.columns + 1) * g.cellWidth)
      && (s.cellHeight < 0 ==> s.rows > 0 && g.cellHeight * g.rows <= spanY < (g.cellHeight + 1) * g.rows)
      && (s.cellWidth < 0 ==> s.columns > 0 && g.cellWidth * g.columns <= spanX < (g.cellWidth + 1) * g.columns)
  {
    var g, spanY, spanX := Resolve(s, img).value, img.h - s.startY, img.w - s.startX;
    if s.rows < 0 {
      FloorDivision(spanY, g.cellHeight);
    }
    if s.columns < 0 {
      FloorDivision(spanX, g.cellWidth);
    }
    if s.cellHeight < 0 {
      FloorDivision(spanY, g.rows);
    }
    if s.cellWidth < 0 {
      FloorDivision(spanX, g.columns);
    }
  }

  /**
   * Every derived value is the floor of the free span over the other value
   * of its pair, and a value the derivation does not apply to is kept, for
   * any start inside the image whether or not `Resolve` later succeeds.
   */
  lemma DeriveFloor(s: Settings, img: ImgSplit.Surface)
    requires StartInside(s, img)
    ensures var d, spanY, spanX := Derive(s, img), img.h - s.startY, img.w - s.startX;
      && (s.rows < 0 && s.cellHeight > 0 ==> d.rows * s.cellHeight <= spanY < (d.rows + 1) * s.cellHeight)
      && (!(s.rows < 0 && s.cellHeight > 0) ==> d.rows == s.rows)
      && (s.columns < 0 && s.cellWidth > 0 ==> d.columns * s.cellWidth <= spanX < (d.columns + 1) * s.cellWidth)
      && (!(s.columns < 0 && s.cellWidth > 0) ==> d.columns == s.columns)
      && (s.cellHeight < 0 && d.rows > 0 ==> d.cellHeight * d.rows <= spanY < (d.cellHeight + 1) * d.rows)
      && (!(s.cellHeight < 0 && d.rows > 0) ==> d.cellHeight == s.cellHeight)
      && (s.cellWidth < 0 && d.columns > 0 ==> d.cellWidth * d.columns <= spanX < (d.cellWidth + 1) * d.columns)
      && (!(s.cellWidth < 0 && d.columns > 0) ==> d.cellWidth == s.cellWidth)
  {
    var d, spanY, spanX := Derive(s, img), img.h - s.startY, img.w - s.startX;
    if s.rows < 0 && s.cellHeight > 0 {
      FloorDivision(spanY, s.cellHeight);
    }
    if s.columns < 0 && s.cellWidth > 0 {
      FloorDivision(spanX, s.cellWidth);
    }
    if s.cellHeight < 0 && d.rows > 0 {
      FloorDivision(spanY, d.rows);
    }
    if s.cellWidth < 0 && d.columns > 0 {
      FloorDivision(spanX, d.columns);
    }
  }

  lemma FloorDivision(span: int, d: int)
    requires span >= 0 && d > 0
    ensures (span / d) * d <= span < (span / d + 1) * d
  {
  }

  /** When rows and columns are both given, the guard keeps their product within an int. */
  lemma GivenCountsFitInt(s: Settings, img: ImgSplit.Surface)
    requires s.rows > 0 && s.columns > 0 && Resolve(s, img).Ok?
    ensures Resolve(s, img).value.rows * Resolve(s, img).value.columns <= INT_MAX
  {
    var g := Resolve(s, img).value;
    assert g.rows == s.rows && g.columns == s.columns;
    assert g.rows <= INT_MAX / g.columns;
    assert g.rows * g.columns <= (INT_MAX / g.columns) * g.columns;
  }

  /**
   * The guard runs before derivation, so a derived count escapes it: with
   * 2^30 columns given and 4 rows derived the product exceeds INT_MAX.
   */
  lemma DerivedCountsEscapeGuard()
    ensures var s := Defaults.(columns := 0x4000_0000, cellHeight := 1);
            var img := ImgSplit.Surface(0x4000_0000, 4);
            Resolve(s, img).Ok? && Resolve(s, img).value.rows * Resolve(s, img).value.columns > INT_MAX
  {
  }

  /**
   * Nothing checks that the grid fits the image when every value is given:
   * on a 100x50 image, start x 90 with 2 columns of width 50 is accepted
   * although the grid reaches x = 190.
   */
  lemma GivenGridMayExceedImage()
    ensures var s := Defaults.(startX := 90, rows := 2, columns := 2, cellWidth := 50, cellHeight := 25);
            var img := ImgSplit.Surface(100, 50);
            Resolve(s, img).Ok? && s.startX + s.columns * s.cellWidth > img.w
  {
  }

  /**
   * Deriving rows from a cell height that divides the free span exactly, and
   * then deriving the cell height back from those rows, gives the same height.
   */
  lemma {:induction false} DerivationRoundTrip(s: Settings, img: ImgSplit.Surface)
    requires s.rows < 0 && s.cellHeight > 0 && Resolve(s, img).Ok?
    requires (img.h - s.startY) % s.cellHeight == 0
    requires Resolve(s, img).value.rows * Resolve(s, img).value.columns <= INT_MAX
    ensures var g := Resolve(s, img).value;
            Resolve(s.(rows := g.rows, cellHeight := -1), img) == Ok(g)
  {
    var g := Resolve(s, img).value;
    var span := img.h - s.startY;
    var t := s.(rows := g.rows, cellHeight := -1);
    assert g.rows == span / s.cellHeight;
    assert span == g.rows * s.cellHeight;
    assert span / g.rows == s.cellHeight by {
      DivideExact(span, g.rows, s.cellHeight);
    }
    assert !TooMany(t.rows, t.columns) by {
      if t.columns > 0 {
        assert t.columns == g.columns;
        DivisionBound(g.rows, g.columns);
      }
    }
  }

  lemma DivideExact(span: int, q: int, d: int)
    requires q > 0 && d > 0 && span == q * d
    ensures span / q == d
  {
    var k, m := span / q, span % q;
    assert span == q * k + m && 0 <= m < q;
    if k < d {
      MultiplyMonotone(k + 1, d, q);
    } else if k > d {
      MultiplyMonotone(d + 1, k, q);
    }
  }

  lemma DivisionBound(a: int, b: int)
    requires a > 0 && b > 0 && a * b <= INT_MAX
    ensures a <= INT_MAX / b
  {
    var k, m := INT_MAX / b, INT_MAX % b;
    assert INT_MAX == b * k + m && 0 <= m < b;
    if a > k {
      MultiplyMonotone(k + 1, a, b);
    }
  }
}

=== FILE: imgsplit.dfy ===
/**
 * The splitter library: the records and error codes of its header and the
 * bodies of its implementation, which are stubs.  `ImgSplit_Start` does
 * nothing and `ImgSplit_Next` reports the end of the enumeration on every call.
 */
module ImgSplit {
  import opened Wrappers
  import LibC

  /** The largest `size_t`, taken to be 64 bits wide. */
  const SIZE_MAX: int := 0xFFFF_FFFF_FFFF_FFFF

  /** An unsigned `size_t`: never negative. */
  type SizeT = n: int | 0 <= n <= SIZE_MAX

  /** Converting an `int` to `size_t`: the value modulo 2^64, so a negative int becomes a huge size. */
  function ToSize(v: int): (n: SizeT)
    ensures 0 <= v ==> n == v % (SIZE_MAX + 1)
    ensures 0 <= v <= SIZE_MAX ==> n == v
    ensures v < 0 && -v <= SIZE_MAX ==> n == SIZE_MAX + 1 + v
  {
    v % (SIZE_MAX + 1)
  }

  /** `enum ImgSplit_ErrorCode`. */
  datatype ErrorCode = NoError | SdlError

  /** The integer value of an error code: 0 for success, a negative number for an error. */
  function Value(code: ErrorCode): (v: int)
    ensures v == 0 <==> code == NoError
    ensures code != NoError ==> LibC.INT_MIN <= v < 0
  {
    match code
    case NoError => 0
    case SdlError => LibC.INT_MIN
  }

  /** `struct ImgSplit_Options`: the grid of pieces to cut; `width` and `height` are those of one piece. */
  datatype Options = Options(startX: SizeT, startY: SizeT, rows: SizeT, columns: SizeT, width: SizeT, height: SizeT)

  /** An `SDL_Surface`, seen only through its pixel size. */
  datatype Surface = Surface(w: int, h: int)

  /** The header's end-of-enumeration signal: success and a null surface. */
  predicate EndOfImages(code: ErrorCode, surf: Option<Surface>) {
    code == NoError && surf.None?
  }

  /**
   * `struct ImgSplit_Context`.  A context declared by a caller is not
   * initialised, so the constructor promises nothing about the fields.
   */
  class Context {
    var opts: Options
    var row: SizeT
    var column: SizeT
    var input: Option<Surface>

    constructor ()
    {
    }

    /** `ImgSplit_Start`: cannot fail, needs no cleanup, and leaves the context as it was. */
    method Start(input: Surface, opts: Options)
      ensures unchanged(this)
    {
    }

    /**
     * `ImgSplit_Next`.  `outRow` and `outColumn` are what the caller's
     * `*out_row` and `*out_column` hold before the call; the results are what
     * they hold after it.  The stub stores null into `*out_surf`, returns
     * success and writes nothing else.
     */
    method Next(outRow: SizeT, outColumn: SizeT) returns (code: ErrorCode, outSurf: Option<Surface>, row: SizeT, column: SizeT)
      ensures EndOfImages(code, outSurf)
      ensures Value(code) == 0
      ensures row == outRow && column == outColumn
    {
      code, outSurf := NoError, None;
      row, column := outRow, outColumn;
    }
  }
}

=== FILE: libc.dfy ===
/**
 * The parts of the C library the program relies on, on mathematical integers:
 * the limits of `int` and `long`, C strings, `strtol` in base 10 (section
 * 7.22.1.4 of ISO C11) and the `%0*d` conversion of `printf` (section
 * 7.21.6.1 of ISO C11).  `int` is taken to be 32 bits wide and `long` 64 bits.
 */
module LibC {

  const INT_MAX: int := 0x7FFF_FFFF
  const INT_MIN: int := -0x8000_0000
  const LONG_MAX: int := 0x7FFF_FFFF_FFFF_FFFF
  const LONG_MIN: int := -0x8000_0000_0000_0000

  /**
   * The `int` an `int` multiplication yields on a two's-complement machine:
   * the mathematical result reduced modulo 2^32 into [INT_MIN, INT_MAX].
   * Signed overflow is undefined in C; this is what common compilers produce.
   */
  function WrapInt(v: int): (r: int)
    ensures INT_MIN <= r <= INT_MAX
    ensures INT_MIN <= v <= INT_MAX ==> r == v
    ensures (v - r) % 0x1_0000_0000 == 0
  {
    var m := v % 0x1_0000_0000;
    if m > INT_MAX then m - 0x1_0000_0000 else m
  }

  /** A NUL-terminated string without its terminator: it holds no NUL. */
  type CString = s: string | forall i | 0 <= i < |s| :: s[i] != '\0'

  /** The character a `char *` pointing at index `i` reads; the terminator reads as NUL. */
  function CharAt(s: string, i: nat): char
    requires i <= |s|
  {
    if i < |s| then s[i] else '\0'
  }

  /** `isspace` in the "C" locale. */
  predicate IsSpace(c: char) {
    c == ' ' || c == '\t' || c == '\n' || c == '\U{B}' || c == '\U{C}' || c == '\r'
  }

  predicate IsDigit(c: char) {
    '0' <= c <= '9'
  }

  predicate AllDigits(s: string) {
    forall i | 0 <= i < |s| :: IsDigit(s[i])
  }

  function DigitValue(c: char): nat
    requires IsDigit(c)
  {
    c as int - '0' as int
  }

  function DigitChar(d: nat): (c: char)
    requires d < 10
    ensures IsDigit(c) && DigitValue(c) == d
  {
    ('0' as int + d) as char
  }

  /** The value of a run of decimal digits, most significant first. */
  function DecimalValue(ds: string): nat
    requires AllDigits(ds)
  {
    if ds == [] then 0 else DecimalValue(ds[..|ds| - 1]) * 10 + DigitValue(ds[|ds| - 1])
  }

  /** The shortest decimal numeral of `n`: no leading zero unless `n` is 0. */
  function DecimalDigits(n: nat): (ds: string)
    ensures |ds| >= 1 && AllDigits(ds)
    ensures DecimalValue(ds) == n
    ensures |ds| > 1 ==> ds[0] != '0'
  {
    if n < 10 then [DigitChar(n)]
    else
      var front := DecimalDigits(n / 10);
      var ds := front + [DigitChar(n % 10)];
      assert ds[..|ds| - 1] == front;
      ds
  }

  /** How many times `n` can be divided by ten before it reaches zero. */
  function DigitCount(n: nat): nat {
    if n == 0 then 0 else 1 + DigitCount(n / 10)
  }

  function Pow10(k: nat): (p: nat)
    ensures p >= 1
  {
    if k == 0 then 1 else 10 * Pow10(k - 1)
  }

  /** A positive number has DigitCount(n) decimal digits. */
  lemma {:induction false} DigitCountBounds(n: nat)
    requires n >= 1
    ensures DigitCount(n) >= 1
    ensures Pow10(DigitCount(n) - 1) <= n < Pow10(DigitCount(n))
  {
    if n >= 10 {
      DigitCountBounds(n / 10);
    }
  }

  /** The numeral of `n` is DigitCount(n) characters long (one for zero). */
  lemma {:induction false} DecimalDigitsLength(n: nat)
    ensures |DecimalDigits(n)| == if n == 0 then 1 else DigitCount(n)
  {
    if n >= 10 {
      DecimalDigitsLength(n / 10);
    }
  }

  lemma {:induction false} DigitCountMonotone(a: nat, b: nat)
    requires a <= b
    ensures DigitCount(a) <= DigitCount(b)
  {
    if a > 0 {
      DigitCountMonotone(a / 10, b / 10);
    }
  }

  function Zeros(k: nat): (z: string)
    ensures |z| == k && AllDigits(z)
    ensures forall i | 0 <= i < k :: z[i] == '0'
  {
    seq(k, _ => '0')
  }

  lemma {:induction false} LeadingZeros(k: nat, ds: string)
    requires AllDigits(ds)
    ensures DecimalValue(Zeros(k) + ds) == DecimalValue(ds)
    decreases |ds| + k
  {
    if ds == [] {
      assert Zeros(k) + ds == Zeros(k);
      if k > 0 {
        assert Zeros(k)[..k - 1] == Zeros(k - 1);
        LeadingZeros(k - 1, []);
        assert Zeros(k - 1) + [] == Zeros(k - 1);
      }
    } else {
      var s := Zeros(k) + ds;
      assert s[..|s| - 1] == Zeros(k) + ds[..|ds| - 1];
      LeadingZeros(k, ds[..|ds| - 1]);
    }
  }

  /** `a <= b` scales by a non-negative factor. */
  lemma MultiplyMonotone(a: int, b: int, c: int)
    requires a <= b && c >= 0
    ensures a * c <= b * c
  {
    assert b * c - a * c == (b - a) * c;
  }

  /** A quotient and remainder with the remainder in [0, d) are the ones `/` and `%` give. */
  lemma DivModUnique(n: int, q: int, m: int, d: int)
    requires 0 <= m < d && n == q * d + m
    ensures n / d == q && n % d == m
  {
    var q', m' := n / d, n % d;
    assert n == q' * d + m' && 0 <= m' < d;
    if q' < q {
      MultiplyMonotone(q' + 1, q, d);
    } else if q < q' {
      MultiplyMonotone(q + 1, q', d);
    }
  }

  /** The sign `printf` writes before the digits of `n`: "-" or nothing. */
  function SignOf(n: int): (sign: string)
    ensures IsSign(sign)
  {
    if n < 0 then "-" else ""
  }

  function Magnitude(n: int): nat {
    if n < 0 then -n else n
  }

  /** The digits `printf("%0*d")` writes after the sign: zeros up to the field width, then the numeral of |n|. */
  function PaddedDigits(n: int, width: nat): (ds: string)
    ensures |ds| >= 1 && AllDigits(ds)
    ensures DecimalValue(ds) == Magnitude(n)
  {
    var digits := DecimalDigits(Magnitude(n));
    var used := |SignOf(n)| + |digits|;
    var zeros := Zeros(if used < width then width - used else 0);
    LeadingZeros(|zeros|, digits);
    zeros + digits
  }

  /** `printf("%0*d", width, n)`: the sign, then zeros up to the field width, then the digits. */
  function FormatPadded(n: int, width: nat): (r: string)
    ensures |r| >= width
    ensures n >= 0 ==> |r| >= 1 && AllDigits(r)
    ensures n < 0 ==> |r| >= 2 && r[0] == '-' && AllDigits(r[1..])
  {
    var sign, digits := SignOf(n), PaddedDigits(n, width);
    assert n < 0 ==> (sign + digits)[1..] == digits;
    sign + digits
  }

  /** The numeral of `n` fits its field exactly when it has at most `width` digits. */
  lemma FormatPaddedWidth(n: nat, width: nat)
    requires 1 <= width && DigitCount(n) <= width
    ensures |FormatPadded(n, width)| == width
  {
    DecimalDigitsLength(n);
  }

  /** What `strtol` reports: the converted value and the index where it stopped. */
  datatype Conversion = Conversion(value: int, end: nat)

  /** The first index at or after `i` that is not white space. */
  function SkipSpace(s: string, i: nat): (j: nat)
    requires i <= |s|
    ensures i <= j <= |s|
    ensures forall k | i <= k < j :: IsSpace(s[k])
    ensures j < |s| ==> !IsSpace(s[j])
    decreases |s| - i
  {
    if i < |s| && IsSpace(s[i]) then SkipSpace(s, i + 1) else i
  }

  /** The first index at or after `i` that is not a decimal digit. */
  function DigitsEnd(s: string, i: nat): (j: nat)
    requires i <= |s|
    ensures i <= j <= |s|
    ensures AllDigits(s[i..j])
    ensures j < |s| ==> !IsDigit(s[j])
    decreases |s| - i
  {
    if i < |s| && IsDigit(s[i]) then
      var j := DigitsEnd(s, i + 1);
      assert s[i..j] == [s[i]] + s[i + 1..j];
      j
    else i
  }

  /** A `long` result: out-of-range values become LONG_MAX or LONG_MIN. */
  function Saturate(v: int): (r: int)
    ensures LONG_MIN <= r <= LONG_MAX
    ensures LONG_MIN <= v <= LONG_MAX ==> r == v
    ensures (v > LONG_MAX ==> r == LONG_MAX) && (v < LONG_MIN ==> r == LONG_MIN)
  {
    if v > LONG_MAX then LONG_MAX else if v < LONG_MIN then LONG_MIN else v
  }

  /**
   * `strtol(s, &end, 10)`: leading white space, an optional sign, then the
   * longest run of digits.  Without a digit nothing is converted: the value is
   * 0 and the end pointer is `s` itself.
   */
  function StrToL(s: string): (r: Conversion)
    ensures r.end <= |s|
    ensures LONG_MIN <= r.value <= LONG_MAX
    ensures r.end == 0 ==> r.value == 0
    ensures r.end > 0 ==> IsDigit(s[r.end - 1]) && (r.end == |s| || !IsDigit(s[r.end]))
  {
    var p := SkipSpace(s, 0);
    var q := if p < |s| && (s[p] == '+' || s[p] == '-') then p + 1 else p;
    var e := DigitsEnd(s, q);
    if e == q then Conversion(0, 0)
    else
      assert IsDigit(s[q..e][e - 1 - q]);
      Conversion(Saturate(Signed(s[p..q], DecimalValue(s[q..e]))), e)
  }

  lemma {:induction false} DigitsEndAt(s: string, i: nat, j: nat)
    requires i <= j <= |s|
    requires AllDigits(s[i..j])
    requires j == |s| || !IsDigit(s[j])
    ensures DigitsEnd(s, i) == j
    decreases j - i
  {
    if i < j {
      assert s[i] == s[i..j][0];
      assert s[i + 1..j] == s[i..j][1..];
      DigitsEndAt(s, i + 1, j);
    }
  }

  /** Whether `sign` is an optional sign: empty, "+" or "-". */
  predicate IsSign(sign: string) {
    |sign| == 0 || (|sign| == 1 && (sign[0] == '+' || sign[0] == '-'))
  }

  /** The sign of a numeral applied to its magnitude. */
  function Signed(sign: string, magnitude: nat): int
    requires IsSign(sign)
  {
    if |sign| == 1 && sign[0] == '-' then -(magnitude as int) else magnitude
  }

  /** Whether every character of `s` is white space. */
  predicate AllSpace(s: string) {
    forall i | 0 <= i < |s| :: IsSpace(s[i])
  }

  /** Skipping white space from `i` stops at `p` when only white space lies between them and `s[p]` is not white space. */
  lemma {:induction false} SkipSpaceAt(s: string, i: nat, p: nat)
    requires i <= p <= |s|
    requires forall k | i <= k < p :: IsSpace(s[k])
    requires p == |s| || !IsSpace(s[p])
    ensures SkipSpace(s, i) == p
    decreases p - i
  {
    if i < p {
      SkipSpaceAt(s, i + 1, p);
    }
  }

  /** `strtol` on a string made of white space up to `p`, an optional sign up to `q` and a run of digits ending at `e`. */
  lemma StrToLAt(s: string, p: nat, q: nat, e: nat)
    requires p <= q < e <= |s|
    requires AllSpace(s[..p])
    requires IsSign(s[p..q])
    requires AllDigits(s[q..e])
    requires e == |s| || !IsDigit(s[e])
    ensures StrToL(s) == Conversion(Saturate(Signed(s[p..q], DecimalValue(s[q..e]))), e)
  {
    DigitsEndAt(s, q, e);
    assert s[p] == if q == p then s[q..e][0] else s[p..q][0];
    assert forall k | 0 <= k < p :: s[k] == s[..p][k];
    SkipSpaceAt(s, 0, p);
  }

  /** How white space, an optionally signed numeral and `rest` split up. */
  lemma NumeralLayout(ws: string, sign: string, ds: string, rest: string)
    requires AllSpace(ws) && IsSign(sign)
    requires |ds| >= 1 && AllDigits(ds)
    requires rest == [] || !IsDigit(rest[0])
    ensures var s, p, q, e := ws + sign + ds + rest, |ws|, |ws| + |sign|, |ws| + |sign| + |ds|;
            && p <= q < e <= |s|
            && s[..p] == ws && s[p..q] == sign && s[q..e] == ds
            && (e == |s| || !IsDigit(s[e]))
  {
    var s, p, q, e := ws + sign + ds + rest, |ws|, |ws| + |sign|, |ws| + |sign| + |ds|;
    assert s[..p] == ws;
    assert e < |s| ==> s[e] == rest[0];
    assert forall k | 0 <= k < |sign| :: s[p + k] == sign[k];
    assert s[p..q] == sign;
    assert forall k | 0 <= k < |ds| :: s[q + k] == ds[k];
    assert s[q..e] == ds;
  }

  /**
   * `strtol` skips leading white space, then reads an optionally signed
   * numeral up to the first non-digit after it.
   */
  lemma StrToLReadsNumeral(ws: string, sign: string, ds: string, rest: string)
    requires AllSpace(ws) && IsSign(sign)
    requires |ds| >= 1 && AllDigits(ds)
    requires rest == [] || !IsDigit(rest[0])
    ensures StrToL(ws + sign + ds + rest)
         == Conversion(Saturate(Signed(sign, DecimalValue(ds))), |ws| + |sign| + |ds|)
  {
    NumeralLayout(ws, sign, ds, rest);
    StrToLOfParts(ws + sign + ds + rest, ws, sign, ds);
  }

  /** `strtol` on a string that begins with white space `ws`, a sign `sign` and digits `ds`, followed by a non-digit or the end. */
  lemma StrToLOfParts(s: string, ws: string, sign: string, ds: string)
    requires AllSpace(ws) && IsSign(sign) && |ds| >= 1 && AllDigits(ds)
    requires var p, q, e := |ws|, |ws| + |sign|, |ws| + |sign| + |ds|;
      && e <= |s| && s[..p] == ws && s[p..q] == sign && s[q..e] == ds
      && (e == |s| || !IsDigit(s[e]))
    ensures StrToL(s) == Conversion(Saturate(Signed(sign, DecimalValue(ds))), |ws| + |sign| + |ds|)
  {
    var p, q, e := |ws|, |ws| + |sign|, |ws| + |sign| + |ds|;
    StrToLAt(s, p, q, e);
    SignedOfSlices(s, p, q, e, sign, ds);
  }

  /** The signed value read from two slices is the one read from the strings they equal. */
  lemma SignedOfSlices(s: string, p: nat, q: nat, e: nat, sign: string, ds: string)
    requires p <= q <= e <= |s| && s[p..q] == sign && s[q..e] == ds
    requires IsSign(sign) && AllDigits(ds)
    ensures Signed(s[p..q], DecimalValue(s[q..e])) == Signed(sign, DecimalValue(ds))
  {
  }

  /**
   * Without a digit after the white space and the optional sign, `strtol`
   * converts nothing: the value is 0 and the end pointer is the start.
   */
  lemma StrToLNoNumeral(ws: string, sign: string, rest: string)
    requires AllSpace(ws) && IsSign(sign)
    requires rest == [] || !IsDigit(rest[0])
    requires sign == [] && rest != [] ==> !IsSpace(rest[0]) && rest[0] != '+' && rest[0] != '-'
    ensures StrToL(ws + sign + rest) == Conversion(0, 0)
  {
    var s := ws + sign + rest;
    var p, q := |ws|, |ws| + |sign|;
    assert forall k | 0 <= k < p :: s[k] == ws[k];
    assert q < |s| ==> s[q] == rest[0];
    assert sign != [] ==> s[p] == sign[0];
    SkipSpaceAt(s, 0, p);
    DigitsEndAt(s, q, q);
  }

  /** Reading back what `%0*d` printed gives the number again. */
  lemma StrToLFormatPadded(n: int, width: nat, rest: string)
    requires LONG_MIN <= n <= LONG_MAX
    requires rest == [] || !IsDigit(rest[0])
    ensures StrToL(FormatPadded(n, width) + rest) == Conversion(n, |FormatPadded(n, width)|)
  {
    assert "" + SignOf(n) + PaddedDigits(n, width) + rest == FormatPadded(n, width) + rest;
    StrToLReadsNumeral("", SignOf(n), PaddedDigits(n, width), rest);
  }

  /** Different numbers never print alike, whatever the field widths. */
  lemma FormatPaddedInjective(a: int, b: int, width: nat)
    requires LONG_MIN <= a <= LONG_MAX && LONG_MIN <= b <= LONG_MAX
    requires FormatPadded(a, width) == FormatPadded(b, width)
    ensures a == b
  {
    StrToLFormatPadded(a, width, []);
    StrToLFormatPadded(b, width, []);
    assert FormatPadded(a, width) + [] == FormatPadded(a, width);
    assert FormatPadded(b, width) + [] == FormatPadded(b, width);
  }
}

=== FILE: naming.dfy ===
/**
 * How the tool names what it writes: the output prefix taken from the input
 * file name, the width of the numeric suffixes and the file name of each
 * piece.
 */
module Naming {
  import opened LibC

  /** `Max`: the larger of two ints. */
  function Max(a: int, b: int): (m: int)
    ensures m >= a && m >= b
    ensures m == a || m == b
  {
    if a > b then a else b
  }

  /** The characterisation of where the extension of `name` starts. */
  predicate IsExtensionPoint(name: string, p: nat) {
    && p <= |name|
    && (|name| > 0 ==> p < |name|)
    && (p > 0 ==> name[p] == '.')
    && (forall j | p < j < |name| :: name[j] != '.')
  }

  /**
   * Where the extension of `name` starts: the index of its last '.', or 0
   * when it has none after the first character.  A dot at index 0 (a name
   * like ".profile") does not count as an extension.
   */
  function ExtensionPoint(name: string): (p: nat)
    ensures IsExtensionPoint(name, p)
  {
    LastDotBefore(name, |name|)
  }

  /** The index of the last '.' before index `k`, or 0 when there is none. */
  function LastDotBefore(name: string, k: nat): (p: nat)
    requires k <= |name|
    ensures p <= k && (k > 0 ==> p < k)
    ensures p > 0 ==> name[p] == '.'
    ensures forall j | p < j < k :: name[j] != '.'
  {
    if k == 0 then 0
    else if name[k - 1] == '.' then k - 1
    else LastDotBefore(name, k - 1)
  }

  /** Only one index satisfies the characterisation. */
  lemma ExtensionPointUnique(name: string, p: nat)
    requires IsExtensionPoint(name, p)
    ensures p == ExtensionPoint(name)
  {
    var q := ExtensionPoint(name);
    assert q > 0 ==> name[q] == '.';
    assert p > 0 ==> name[p] == '.';
  }

  /**
   * The backward scan of `ReadOptions` for the extension point: from the end
   * of the name towards its start, stopping at the first '.' met.
   */
  method FindExtensionPoint(name: CString) returns (extPoint: nat)
    ensures extPoint == ExtensionPoint(name)
  {
    extPoint := |name|;
    while extPoint > 0
      invariant extPoint <= |name|
      invariant forall j | extPoint <= j < |name| :: name[j] != '.'
    {
      extPoint := extPoint - 1;
      if name[extPoint] == '.' {
        break;
      }
    }
    ExtensionPointUnique(name, extPoint);
  }

  /**
   * The output prefix when `-p` is not given: the input file name without
   * its extension, or the whole name when it has none.
   */
  function DefaultPrefix(name: CString): (prefix: CString)
    ensures prefix <= name
    ensures prefix == name <==> forall j | 0 < j < |name| :: name[j] != '.'
    ensures prefix != name ==>
              && |prefix| > 0 && name[|prefix|] == '.'
              && forall j | |prefix| < j < |name| :: name[j] != '.'
  {
    var p := ExtensionPoint(name);
    if p == 0 then name else name[..p]
  }

  /** The file name keeps only what comes before its last dot. */
  lemma DefaultPrefixExamples()
    ensures DefaultPrefix("photo.png") == "photo"
    ensures DefaultPrefix("archive.tar.gz") == "archive.tar"
  {
    ExtensionPointUnique("photo.png", 5);
    ExtensionPointUnique("archive.tar.gz", 11);
  }

  /** A name without a dot after its first character is kept whole. */
  lemma DefaultPrefixKeepsUndotted()
    ensures DefaultPrefix("README") == "README"
    ensures DefaultPrefix(".profile") == ".profile"
  {
    ExtensionPointUnique("README", 0);
    ExtensionPointUnique(".profile", 0);
  }

  /** The dot need not be in the last path component: a dotted directory name is cut there. */
  lemma DottedDirectoryIsCut()
    ensures DefaultPrefix("my.pics/photo") == "my"
  {
    ExtensionPointUnique("my.pics/photo", 2);
  }

  /**
   * The number whose digit count is the suffix width: the number of pieces
   * for linear names (an `int` product, so it may wrap), the larger of the
   * row and column counts for grid names.
   */
  function SuffixBound(rows: int, columns: int, dim: int): (n: int)
    ensures dim == 1 ==> INT_MIN <= n <= INT_MAX
    ensures dim == 1 && INT_MIN <= rows * columns <= INT_MAX ==> n == rows * columns
    ensures dim != 1 ==> n >= rows && n >= columns && (n == rows || n == columns)
  {
    if dim == 1 then WrapInt(rows * columns) else Max(rows, columns)
  }

  /** The decimal places of a positive bound; a bound of 0 or less gives none. */
  function SuffixWidth(rows: int, columns: int, dim: int): (w: nat)
    ensures w == 0 <==> SuffixBound(rows, columns, dim) <= 0
    ensures SuffixBound(rows, columns, dim) > 0 ==> Pow10(w - 1) <= SuffixBound(rows, columns, dim) < Pow10(w)
  {
    var n := SuffixBound(rows, columns, dim);
    if n > 0 then DigitCountBounds(n); DigitCount(n) else 0
  }

  /** The position of a cell in row-major order. */
  function CellIndex(row: int, column: int, columns: int): (k: int)
    ensures 0 <= column < columns ==> k / columns == row && k % columns == column
  {
    var k := row * columns + column;
    if 0 <= column < columns then DivModUnique(k, row, column, columns); k else k
  }

  /** A cell of the grid has an index below the number of cells. */
  lemma CellIndexRange(row: int, column: int, rows: int, columns: int)
    requires 0 <= row < rows && 0 <= column < columns
    ensures 0 <= CellIndex(row, column, columns) < rows * columns
  {
    assert row * columns <= (rows - 1) * columns by {
      MultiplyMonotone(row, rows - 1, columns);
    }
  }

  /** Two cells of one grid share an index exactly when they are the same cell. */
  lemma CellIndexInjective(r1: int, c1: int, r2: int, c2: int, columns: int)
    requires 0 <= c1 < columns && 0 <= c2 < columns
    ensures CellIndex(r1, c1, columns) == CellIndex(r2, c2, columns) <==> r1 == r2 && c1 == c2
  {
    if r1 < r2 {
      MultiplyMonotone(r1 + 1, r2, columns);
      assert CellIndex(r1, c1, columns) < (r1 + 1) * columns;
    } else if r2 < r1 {
      MultiplyMonotone(r2 + 1, r1, columns);
      assert CellIndex(r2, c2, columns) < (r2 + 1) * columns;
    }
  }

  /** Indices grow in row-major order: a cell in an earlier row, or earlier in the same row, has a smaller index. */
  lemma CellIndexRowMajor(r1: int, c1: int, r2: int, c2: int, columns: int)
    requires 0 <= c1 < columns && 0 <= c2 < columns
    requires r1 < r2 || (r1 == r2 && c1 < c2)
    ensures CellIndex(r1, c1, columns) < CellIndex(r2, c2, columns)
  {
    if r1 < r2 {
      MultiplyMonotone(r1 + 1, r2, columns);
    }
  }

  /** How a name made of a prefix, '_', the number fields and ".png" begins and ends. */
  lemma NameShape(prefix: string, fields: string)
    ensures var name := prefix + "_" + fields + ".png";
            name[..|prefix| + 1] == prefix + "_" && name[|name| - 4..] == ".png"
  {
    var name := prefix + "_" + fields + ".png";
    assert name[..|prefix| + 1] == prefix + "_";
    assert name[|name| - 4..] == ".png";
  }

  /**
   * The name `SavePiece` prints: `prefix_RRR_CCC.png` for grid names,
   * `prefix_NNN.png` for linear ones, every number zero-padded to `width`.
   */
  function PieceName(prefix: CString, dim: int, width: nat, row: int, column: int, columns: int): (name: string)
    ensures |name| >= |prefix| + 1 + width + 4
    ensures name[..|prefix| + 1] == prefix + "_" && name[|name| - 4..] == ".png"
  {
    var fields :=
      if dim == 2 then FormatPadded(row, width) + "_" + FormatPadded(column, width)
      else FormatPadded(CellIndex(row, column, columns), width);
    NameShape(prefix, fields);
    prefix + "_" + fields + ".png"
  }

  lemma RegroupGridName(prefix: string, rowText: string, columnText: string)
    ensures prefix + "_" + (rowText + "_" + columnText) + ".png" == prefix + "_" + rowText + "_" + columnText + ".png"
    ensures prefix + "_" + rowText + "_" + columnText + ".png" == prefix + "_" + rowText + ("_" + columnText + ".png")
  {
  }

  /** A grid name spelled out. */
  lemma GridNameIs(prefix: CString, width: nat, row: int, column: int, columns: int)
    ensures PieceName(prefix, 2, width, row, column, columns)
         == prefix + "_" + FormatPadded(row, width) + "_" + FormatPadded(column, width) + ".png"
  {
    RegroupGridName(prefix, FormatPadded(row, width), FormatPadded(column, width));
  }

  /** A linear name spelled out. */
  lemma LinearNameIs(prefix: CString, dim: int, width: nat, row: int, column: int, columns: int)
    requires dim != 2
    ensures PieceName(prefix, dim, width, row, column, columns)
         == prefix + "_" + FormatPadded(CellIndex(row, column, columns), width) + ".png"
  {
  }

  /** The first field of `prefix_N_...` reads back as N. */
  lemma FirstFieldReadsBack(prefix: string, n: int, width: nat, rest: string)
    requires LONG_MIN <= n <= LONG_MAX
    requires rest == [] || !IsDigit(rest[0])
    ensures StrToL((prefix + "_" + FormatPadded(n, width) + rest)[|prefix| + 1..])
              == Conversion(n, |FormatPadded(n, width)|)
  {
    assert (prefix + "_" + FormatPadded(n, width) + rest)[|prefix| + 1..] == FormatPadded(n, width) + rest;
    StrToLFormatPadded(n, width, rest);
  }

  /** The second field of `prefix_R_N.png` reads back as N. */
  lemma SecondFieldReadsBack(prefix: string, rowText: string, n: int, width: nat)
    requires LONG_MIN <= n <= LONG_MAX
    ensures StrToL((prefix + "_" + rowText + "_" + FormatPadded(n, width) + ".png")[|prefix| + |rowText| + 2..])
              == Conversion(n, |FormatPadded(n, width)|)
  {
    assert (prefix + "_" + rowText + "_" + FormatPadded(n, width) + ".png")[|prefix| + |rowText| + 2..]
        == FormatPadded(n, width) + ".png";
    StrToLFormatPadded(n, width, ".png");
  }

  /** The row field of a grid name reads back, with `strtol`, as the row it was printed from. */
  lemma GridRowReadsBack(prefix: CString, width: nat, row: int, column: int, columns: int)
    requires LONG_MIN <= row <= LONG_MAX
    ensures StrToL(PieceName(prefix, 2, width, row, column, columns)[|prefix| + 1..])
              == Conversion(row, |FormatPadded(row, width)|)
  {
    GridNameIs(prefix, width, row, column, columns);
    RegroupGridName(prefix, FormatPadded(row, width), FormatPadded(column, width));
    FirstFieldReadsBack(prefix, row, width, "_" + FormatPadded(column, width) + ".png");
  }

  /** The column field, which starts just after the row field and its '_', reads back as the column. */
  lemma GridColumnReadsBack(prefix: CString, width: nat, row: int, column: int, columns: int)
    requires LONG_MIN <= column <= LONG_MAX
    ensures StrToL(PieceName(prefix, 2, width, row, column, columns)[|prefix| + |FormatPadded(row, width)| + 2..])
              == Conversion(column, |FormatPadded(column, width)|)
  {
    GridNameIs(prefix, width, row, column, columns);
    SecondFieldReadsBack(prefix, FormatPadded(row, width), column, width);
  }

  /** The field of a linear name reads back, with `strtol`, as the index it was printed from. */
  lemma LinearNameReadsBack(prefix: CString, dim: int, width: nat, row: int, column: int, columns: int)
    requires dim != 2
    requires LONG_MIN <= CellIndex(row, column, columns) <= LONG_MAX
    ensures var index := CellIndex(row, column, columns);
            StrToL(PieceName(prefix, dim, width, row, column, columns)[|prefix| + 1..])
              == Conversion(index, |FormatPadded(index, width)|)
  {
    LinearNameIs(prefix, dim, width, row, column, columns);
    FirstFieldReadsBack(prefix, CellIndex(row, column, columns), width, ".png");
  }

  /** Two grid names that are equal were printed from the same row. */
  lemma GridRowsAgree(prefix: CString, width: nat, r1: int, c1: int, r2: int, c2: int, columns: int)
    requires 0 <= r1 <= INT_MAX && 0 <= r2 <= INT_MAX
    requires PieceName(prefix, 2, width, r1, c1, columns) == PieceName(prefix, 2, width, r2, c2, columns)
    ensures r1 == r2
  {
    GridRowReadsBack(prefix, width, r1, c1, columns);
    GridRowReadsBack(prefix, width, r2, c2, columns);
  }

  /** Two equal grid names of one row were printed from the same column. */
  lemma GridColumnsAgree(prefix: CString, width: nat, row: int, c1: int, c2: int, columns: int)
    requires 0 <= c1 <= INT_MAX && 0 <= c2 <= INT_MAX
    requires PieceName(prefix, 2, width, row, c1, columns) == PieceName(prefix, 2, width, row, c2, columns)
    ensures c1 == c2
  {
    GridColumnReadsBack(prefix, width, row, c1, columns);
    GridColumnReadsBack(prefix, width, row, c2, columns);
  }

  /** Distinct cells get distinct grid names, whatever the field width. */
  lemma GridNamesDistinct(prefix: CString, width: nat, r1: int, c1: int, r2: int, c2: int, columns: int)
    requires 0 <= r1 <= INT_MAX && 0 <= c1 <= INT_MAX && 0 <= r2 <= INT_MAX && 0 <= c2 <= INT_MAX
    requires PieceName(prefix, 2, width, r1, c1, columns) == PieceName(prefix, 2, width, r2, c2, columns)
    ensures r1 == r2 && c1 == c2
  {
    GridRowsAgree(prefix, width, r1, c1, r2, c2, columns);
    GridColumnsAgree(prefix, width, r1, c1, c2, columns);
  }

  /** Distinct cells of one grid get distinct linear names, whatever the field width. */
  lemma LinearNamesDistinct(prefix: CString, dim: int, width: nat, rows: int, columns: int,
                            r1: int, c1: int, r2: int, c2: int)
    requires dim != 2
    requires 0 <= r1 < rows && 0 <= c1 < columns && 0 <= r2 < rows && 0 <= c2 < columns
    requires rows * columns <= INT_MAX
    requires PieceName(prefix, dim, width, r1, c1, columns) == PieceName(prefix, dim, width, r2, c2, columns)
    ensures r1 == r2 && c1 == c2
  {
    CellIndexRange(r1, c1, rows, columns);
    CellIndexRange(r2, c2, rows, columns);
    LinearNameReadsBack(prefix, dim, width, r1, c1, columns);
    LinearNameReadsBack(prefix, dim, width, r2, c2, columns);
    CellIndexInjective(r1, c1, r2, c2, columns);
  }

  /** Two cells of a grid whose piece count fits an `int` get the same name exactly when they are the same cell. */
  lemma PieceNamesDistinct(prefix: CString, dim: int, width: nat, rows: int, columns: int,
                           r1: int, c1: int, r2: int, c2: int)
    requires 0 <= r1 < rows && 0 <= c1 < columns && 0 <= r2 < rows && 0 <= c2 < columns
    requires rows * columns <= INT_MAX
    ensures PieceName(prefix, dim, width, r1, c1, columns) == PieceName(prefix, dim, width, r2, c2, columns)
            <==> r1 == r2 && c1 == c2
  {
    if PieceName(prefix, dim, width, r1, c1, columns) == PieceName(prefix, dim, width, r2, c2, columns) {
      if dim == 2 {
        MultiplyMonotone(1, rows, columns);
        MultiplyMonotone(1, columns, rows);
        assert rows <= INT_MAX && columns <= INT_MAX;
        GridNamesDistinct(prefix, width, r1, c1, r2, c2, columns);
      } else {
        LinearNamesDistinct(prefix, dim, width, rows, columns, r1, c1, r2, c2);
      }
    }
  }

  /** Every cell's numbers fit the suffix width, so each field is exactly that wide and the width is at least 1. */
  lemma CellsFitSuffixWidth(rows: int, columns: int, dim: int, row: int, column: int)
    requires 0 <= row < rows && 0 <= column < columns
    requires dim == 1 ==> rows * columns <= INT_MAX
    ensures var w := SuffixWidth(rows, columns, dim);
            && w >= 1
            && (dim == 1 ==> |FormatPadded(CellIndex(row, column, columns), w)| == w)
            && (dim != 1 ==> |FormatPadded(row, w)| == w && |FormatPadded(column, w)| == w)
  {
    var w := SuffixWidth(rows, columns, dim);
    if dim == 1 {
      CellIndexRange(row, column, rows, columns);
      MultiplyMonotone(1, rows, columns);
      var index := CellIndex(row, column, columns);
      DigitCountMonotone(index, rows * columns);
      DigitCountBounds(rows * columns);
      FormatPaddedWidth(index, w);
    } else {
      var m := Max(rows, columns);
      DigitCountMonotone(row, m);
      DigitCountMonotone(column, m);
      DigitCountBounds(m);
      FormatPaddedWidth(row, w);
      FormatPaddedWidth(column, w);
    }
  }

  /** With the suffix width, all names of one run have the same length. */
  lemma PieceNameLength(prefix: CString, dim: int, rows: int, columns: int, row: int, column: int)
    requires dim == 1 || dim == 2
    requires 0 <= row < rows && 0 <= column < columns
    requires dim == 1 ==> rows * columns <= INT_MAX
    ensures var w := SuffixWidth(rows, columns, dim);
            |PieceName(prefix, dim, w, row, column, columns)|
              == |prefix| + 1 + w + (if dim == 2 then 1 + w else 0) + 4
  {
    CellsFitSuffixWidth(rows, columns, dim, row, column);
    var w := SuffixWidth(rows, columns, dim);
    if dim == 2 {
      GridNameIs(prefix, w, row, column, columns);
    } else {
      LinearNameIs(prefix, dim, w, row, column, columns);
    }
  }

  /**
   * The width counts the digits of the number of pieces (or of the larger
   * count), not of the largest index printed: one row of ten pieces gets
   * two-digit suffixes although its indices run from 0 to 9.
   */
  lemma WidthFollowsCountNotLargestIndex()
    ensures SuffixWidth(1, 10, 1) == 2 && DigitCount(CellIndex(0, 9, 10)) == 1
    ensures SuffixWidth(10, 3, 2) == 2 && DigitCount(9) == 1
  {
  }

  /**
   * A linear grid whose piece count does not fit an `int` wraps: 4 rows of
   * 2^30 columns give a bound of 0 and so a suffix width of 0.
   */
  lemma WrappedCountGivesNoWidth()
    ensures 4 * 0x4000_0000 > INT_MAX
    ensures SuffixBound(4, 0x4000_0000, 1) == 0 && SuffixWidth(4, 0x4000_0000, 1) == 0
  {
  }
}

=== FILE: program.dfy ===
/**
 * The command-line tool itself: its file-scope variables as an object, the
 * option reader, the suffix width computation and the loop that asks the
 * splitter for pieces, and `main` tying them together.
 */
module Program {
  import opened Wrappers
  import opened LibC
  import opened Config
  import opened Arguments
  import opened Geometry
  import opened Naming
  import ImgSplit

  /** What the option reader guarantees on return: the assertions that close it, and a loaded image the start lies in. */
  predicate Ready(s: Settings) {
    && s.rows >= 1 && s.columns >= 1 && s.cellWidth >= 1 && s.cellHeight >= 1
    && s.inputFile.Some? && s.outputPrefix.Some?
    && (s.dim == 1 || s.dim == 2)
    && s.inputSurf.Some?
    && 0 <= s.startX < s.inputSurf.value.w && 0 <= s.startY < s.inputSurf.value.h
  }

  /**
   * The outcome of the option reader on `argv`, with `load` standing for the
   * image loader: scan the arguments, require an input file, load it, check
   * and complete the grid, then default the output prefix to the input file
   * name without its extension.
   */
  function Configuration(argv: seq<CString>, load: CString -> Option<ImgSplit.Surface>): (r: Result<Settings, Error>)
    ensures r.Ok? ==> Ready(r.value)
    ensures r.Ok? ==> Scan(argv).Ok? && r.value.inputFile == Scan(argv).value.inputFile
                      && r.value.dim == Scan(argv).value.dim
                      && r.value.startX == Scan(argv).value.startX && r.value.startY == Scan(argv).value.startY
    ensures Scan(argv).Err? ==> r == Err(Scan(argv).error)
    ensures Scan(argv).Ok? && Scan(argv).value.inputFile.None? ==> r == Err(InputUnspecified)
  {
    match Scan(argv)
    case Err(e) => Err(e)
    case Ok(s) =>
      if s.inputFile.None? then Err(InputUnspecified)
      else
        match load(s.inputFile.value)
        case None => Err(LoadFailed)
        case Some(img) =>
          match Resolve(s.(inputSurf := Some(img)), img)
          case Err(e) => Err(e)
          case Ok(g) =>
            Ok(g.(outputPrefix := Some(if g.outputPrefix.Some? then g.outputPrefix.value else DefaultPrefix(g.inputFile.value))))
  }

  /**
   * After a successful scan that names an input file, a failed load is
   * reported as such, a grid failure is passed through unchanged, and on
   * success every setting apart from the output prefix is the resolved grid.
   */
  lemma ConfigurationIsResolve(argv: seq<CString>, load: CString -> Option<ImgSplit.Surface>)
    requires Scan(argv).Ok? && Scan(argv).value.inputFile.Some?
    ensures var s := Scan(argv).value;
            load(s.inputFile.value).None? ==> Configuration(argv, load) == Err(LoadFailed)
    ensures var s := Scan(argv).value;
            load(s.inputFile.value).Some? ==>
              var img := load(s.inputFile.value).value;
              var g := Resolve(s.(inputSurf := Some(img)), img);
              && (g.Err? ==> Configuration(argv, load) == Err(g.error))
              && (g.Ok? ==> Configuration(argv, load).Ok?
                            && Configuration(argv, load).value.(outputPrefix := s.outputPrefix) == g.value)
  {
  }

  /** Without `-p`, the prefix is the input file name cut at its extension; with it, the value given. */
  lemma ConfigurationPrefix(argv: seq<CString>, load: CString -> Option<ImgSplit.Surface>)
    requires Configuration(argv, load).Ok?
    ensures var s, given := Configuration(argv, load).value, Scan(argv).value.outputPrefix;
            s.outputPrefix == if given.Some? then given else Some(DefaultPrefix(s.inputFile.value))
  {
  }

  /** The option parsers refuse negative numbers, so the negative-start failures can never be reported. */
  lemma NegativeStartUnreachable(argv: seq<CString>, load: CString -> Option<ImgSplit.Surface>)
    ensures Configuration(argv, load).Err? ==>
              !Configuration(argv, load).error.NegativeStartX? && !Configuration(argv, load).error.NegativeStartY?
  {
  }

  /** The program's file-scope variables. */
  class Globals {
    var rows: int
    var columns: int
    var cellWidth: int
    var cellHeight: int
    var startX: int
    var startY: int
    var dim: int
    var numWidth: int
    var outputPrefix: Option<CString>
    var inputFile: Option<CString>
    var inputSurf: Option<ImgSplit.Surface>

    /** The variables as the program starts: counts and sizes unset, start at the origin, grid names, width 0. */
    constructor ()
      ensures Snapshot() == Defaults && numWidth == 0
    {
      rows, columns, cellWidth, cellHeight := -1, -1, -1, -1;
      startX, startY, dim, numWidth := 0, 0, 2, 0;
      outputPrefix, inputFile, inputSurf := None, None, None;
    }

    /** The variables the option reader sets, as one value. */
    function Snapshot(): Settings
      reads this
    {
      Settings(rows, columns, cellWidth, cellHeight, startX, startY, dim, inputFile, outputPrefix, inputSurf)
    }

    /** Set every variable the option reader owns to `s`. */
    method Store(s: Settings)
      modifies this
      ensures Snapshot() == s && numWidth == old(numWidth)
    {
      rows, columns, cellWidth, cellHeight := s.rows, s.columns, s.cellWidth, s.cellHeight;
      startX, startY, dim := s.startX, s.startY, s.dim;
      outputPrefix, inputFile, inputSurf := s.outputPrefix, s.inputFile, s.inputSurf;
    }

    /** The four derivations of missing counts and cell sizes, one after the other. */
    method DeriveMissing(img: ImgSplit.Surface)
      requires 0 <= startX < img.w && 0 <= startY < img.h
      modifies this
      ensures Snapshot() == Derive(old(Snapshot()), img) && numWidth == old(numWidth)
    {
      if rows < 0 && cellHeight > 0 {
        rows := (img.h - startY) / cellHeight;
      }
      if columns < 0 && cellWidth > 0 {
        columns := (img.w - startX) / cellWidth;
      }
      if cellHeight < 0 && rows > 0 {
        cellHeight := (img.h - startY) / rows;
      }
      if cellWidth < 0 && columns > 0 {
        cellWidth := (img.w - startX) / columns;
      }
    }

    /**
     * `ReadOptions`: the loop over the arguments, then loading the image,
     * the checks and derivations, and the default prefix.  A failure stops
     * the reader with that error; on success the variables hold the
     * configuration.
     */
    method ReadOptions(argv: seq<CString>, load: CString -> Option<ImgSplit.Surface>) returns (err: Option<Error>)
      requires Snapshot() == Defaults
      modifies this
      ensures numWidth == old(numWidth)
      ensures Configuration(argv, load).Err? ==> err == Some(Configuration(argv, load).error)
      ensures Configuration(argv, load).Ok? ==> err == None && Snapshot() == Configuration(argv, load).value
    {
      var i: nat, readingOpts := 1, true;
      while i < |argv|
        invariant ScanFrom(argv, i, readingOpts, Snapshot()) == Scan(argv)
        invariant numWidth == old(numWidth)
        decreases |argv| - i
      {
        var step := ScanArg(argv, i, readingOpts, Snapshot());
        if step.Err? {
          return Some(step.error);
        }
        Store(step.value.settings);
        i, readingOpts := step.value.next, step.value.readingOpts;
      }

      if inputFile.None? {
        return Some(InputUnspecified);
      }
      var surf := load(inputFile.value);
      if surf.None? {
        return Some(LoadFailed);
      }
      inputSurf := surf;
      var img := surf.value;

      if startX < 0 {
        return Some(NegativeStartX(startX));
      } else if startY < 0 {
        return Some(NegativeStartY(startY));
      } else if startX >= img.w {
        return Some(StartXOutside(startX, img.w));
      } else if startY >= img.h {
        return Some(StartYOutside(startY, img.h));
      }
      if columns > 0 && rows > INT_MAX / columns {
        return Some(TooManyPieces(rows, columns));
      }
      DeriveMissing(img);
      if rows <= 0 {
        return Some(RowsUnspecified);
      } else if columns <= 0 {
        return Some(ColumnsUnspecified);
      } else if cellWidth <= 0 {
        return Some(WidthUnspecified);
      } else if cellHeight <= 0 {
        return Some(HeightUnspecified);
      }

      if outputPrefix.None? {
        var name := inputFile.value;
        var extPoint := FindExtensionPoint(name);
        outputPrefix := Some(if extPoint == 0 then name else name[..extPoint]);
      }
      return None;
    }

    /**
     * `ComputeNumericSuffixesWidth`: counts the decimal places of the bound
     * into `numWidth`, dividing by 10 until nothing is left.
     */
    method ComputeNumericSuffixesWidth()
      requires rows > 0 && columns > 0
      modifies this`numWidth
      ensures numWidth == old(numWidth) + SuffixWidth(rows, columns, dim)
    {
      var n := SuffixBound(rows, columns, dim);
      while n > 0
        invariant numWidth + (if n > 0 then DigitCount(n) else 0) == old(numWidth) + SuffixWidth(rows, columns, dim)
        decreases n
      {
        numWidth := numWidth + 1;
        n := n / 10;
      }
    }

    /**
     * `OutputImagePieces`: starts the splitter on the loaded image and asks
     * it for pieces until it reports the end, collecting the names the pieces
     * would be saved under.  The splitter ends the enumeration on its first
     * call, so nothing is saved.
     */
    method OutputImagePieces() returns (r: Result<seq<string>, Error>)
      requires inputSurf.Some? && outputPrefix.Some?
      ensures r == Ok([])
    {
      var opts := ImgSplit.Options(
        ImgSplit.ToSize(startX), ImgSplit.ToSize(startY),
        ImgSplit.ToSize(rows), ImgSplit.ToSize(columns),
        ImgSplit.ToSize(cellWidth), ImgSplit.ToSize(cellHeight));
      var context := new ImgSplit.Context();
      context.Start(inputSurf.value, opts);

      var prefix := outputPrefix.value;
      var width: nat := if numWidth > 0 then numWidth else 0;
      var saved: seq<string> := [];
      var row: ImgSplit.SizeT, column: ImgSplit.SizeT := 0, 0;
      var done := false;
      while !done
        invariant saved == []
        decreases !done
      {
        var code, piece;
        code, piece, row, column := context.Next(row, column);
        if ImgSplit.Value(code) < 0 {
          return Err(SplitFailed);
        }
        if piece.None? {
          done := true;
        } else {
          saved := saved + [PieceName(prefix, dim, width, row, column, columns)];
        }
      }
      return Ok(saved);
    }
  }

  /**
   * `main`: read the options, compute the suffix width, output the pieces.
   * An error in the options ends the run with that error; otherwise the run
   * succeeds having saved no piece.
   */
  method Run(argv: seq<CString>, load: CString -> Option<ImgSplit.Surface>) returns (r: Result<seq<string>, Error>)
    ensures Configuration(argv, load).Err? ==> r == Err(Configuration(argv, load).error)
    ensures Configuration(argv, load).Ok? ==> r == Ok([])
  {
    var globals := new Globals();
    var err := globals.ReadOptions(argv, load);
    if err.Some? {
      return Err(err.value);
    }
    globals.ComputeNumericSuffixesWidth();
    r := globals.OutputImagePieces();
  }
}

=== FILE: wrappers.dfy ===
/** Option and Result: the null pointers and the error exits of the C code. */
module Wrappers {

  /** A value or nothing; stands for a C pointer that may be null. */
  datatype Option<+T> = None | Some(value: T)

  /** A value or the error that stopped the computation. */
  datatype Result<+T, +E> = Ok(value: T) | Err(error: E)
}
